=== FILE: README.md ===
# Multi-session orchestrator, modelled in Dafny

This project models the session orchestration engine of Claudia's multi-session feature in
Dafny. The engine runs several coding-agent processes side by side against one repository. Each
run (a *session*) gets its own git worktree and branch. Its output goes into a bounded ring
buffer, and status changes are read off the agent's output lines. Confirmation prompts can be
answered automatically ("auto-yes"). A registry enforces a session limit and routes the pause,
resume, terminate and input commands.

Each Rust source file of the engine becomes one module:

| module | file | contents |
|---|---|---|
| `Sessions` | `session.rs` | the session record, the drop-oldest ring, the preview, the status mutators, the summary projection |
| `GitWorktree` | `git_worktree.rs` | branch and checkout naming, the outcome rules of `remove`, `commit_changes` and `get_diff_stats`, and a recogniser for git's `--stat` summary line with its round trip |
| `Process` | `process.rs` | the launch request, the status classifier, the critical-error test, the per-line effect of the stdout and stderr readers, and the bytes `send_input` writes |
| `AutoYes` | `auto_yes.rs` | the built-in prompt patterns, `add_pattern`, `detect_prompt`, `is_safe_prompt`, and the filter of `check_all_sessions` |
| `Manager` | `manager.rs` | the registry (`map<string, Session>` plus the limit) and its commands, each returning the new registry, a result and the published events |
| `Types`, `Results`, `Seqs`, `Text`, `Paths` | `mod.rs` and helpers | the shared records, `Option`/`Result`, sequence windows, ASCII text helpers, `str::lines`, and paths |

The model has no clock, no UUIDs and no external runs. The clock reading (`now`) and the fresh
session id are parameters. So are the outcomes of git runs (`CommandOutput`: not launched, or
exited with a status and its captured output), of the process spawn, of stdin writes and of
database writes. A running child is reduced to what the engine can observe: whether its stdin
is piped, and every byte written to it so far.

Behaviour of the code worth knowing, where a reader might expect otherwise:

- No safety gate stands before an automatic answer. `is_safe_prompt` exists, but
  `check_all_sessions` never calls it. `AutoYes.UnsafePromptIsStillAnswered` shows a prompt
  containing "Delete" being answered "yes".
- Input sent to a terminated session fails with "Session not found", not with a distinct
  not-writable error, because termination removes the entry (`Manager.TerminatedSessionIsGone`).
- Admission counts every registry entry, including paused sessions and sessions in Error or
  Completed, not only non-terminal ones (`Manager.PausedSessionsCountTowardLimit`).
- Error is not a final status. The stdout reader keeps classifying lines, so a later "Ready"
  line moves the session out of Error (`Process.ErrorStatusIsNotFinal`).
- Pause has no check on the prior status, and resume accepts only Paused.
- `create_session` has no explicit rollback step. A setup failure after the worktree was created
  (the database write at manager.rs:81 or the spawn at manager.rs:84-87) leaves the registry
  untouched. The worktree is still removed, but not by a rollback: the `Drop` impl of
  `GitWorktree` (git_worktree.rs:189-193, see "Left out") removes it when the local handle goes
  out of scope. That happens on every exit of `create_session`, the error returns at
  manager.rs:81 and :87 as well as the success return at :101.

## Model

| member | source | states |
|---|---|---|
| Sessions.DefaultConfig | src-tauri/src/multi_session/session.rs:33-44 | auto-yes off, a ring of 10000 lines, branch prefix "claudia-session", no environment, no arguments, no working-directory override |
| Sessions.NewSession | src-tauri/src/multi_session/session.rs:82-106 | a new session starts Initializing, with no process, an empty buffer and no error message; both timestamps are the creation time |
| Sessions.AppendLine | src-tauri/src/multi_session/session.rs:108-113 | the new line is always last; a buffer below capacity grows by exactly that line; a full buffer loses only its single oldest line; with capacity >= 1 the bound is kept; with capacity 0 a buffer of at most one line becomes exactly the new line |
| Sessions.AppendLineIsWindow | src-tauri/src/multi_session/session.rs:108-113 | with capacity >= 1, one append leaves exactly the last `max` lines of the old buffer followed by the new line |
| Sessions.AppendAllIsWindow | src-tauri/src/multi_session/session.rs:108-113 | over any number of appends the ring holds exactly the last `max` lines of everything appended, and so never exceeds the capacity |
| Sessions.ZeroCapacityKeepsNewestLine | src-tauri/src/multi_session/session.rs:110-113 | with capacity 0 the ring does not stay empty: after any non-empty run of appends it holds exactly the newest line |
| Sessions.Preview | src-tauri/src/multi_session/session.rs:119-127 | the preview has min(n, length) lines and they are the buffer's last lines in their original order; n = 0 gives nothing |
| Sessions.AppendOutput | src-tauri/src/multi_session/session.rs:108-117 | the buffer takes the ring step and the update time is set; nothing else changes |
| Sessions.SetStatus | src-tauri/src/multi_session/session.rs:129-135 | the status is replaced and the update time is set; nothing else changes |
| Sessions.SetError | src-tauri/src/multi_session/session.rs:137-141 | the error message becomes the given text and the status becomes Error; nothing else changes but the update time |
| Sessions.Terminate | src-tauri/src/multi_session/session.rs:143-148 | from any state, the session ends with no process and status Terminated; nothing else changes but the update time |
| Sessions.TerminateIsIdempotent | src-tauri/src/multi_session/session.rs:143-148 | terminating twice is the same as terminating once |
| Sessions.ToInfo | src-tauri/src/multi_session/session.rs:150-168 | id, project id, branch, auto-yes flag, status, diff and timestamps are copied; the project and worktree paths are rendered as text; the preview is the last at most 5 buffered lines joined by "\n" |
| GitWorktree.NewWorktree | src-tauri/src/multi_session/git_worktree.rs:13-26 | the branch is prefix + "-" + the first 8 characters of the id (8 bytes in the code, the same for the ASCII UUIDs in use); the checkout is (repo parent, or the repo itself) / ".claudia-worktrees" / "session-" + those 8 characters; an id shorter than 8 characters is excluded |
| GitWorktree.NamesDeterminedByShortId | src-tauri/src/multi_session/git_worktree.rs:14-19 | two ids give the same branch, and the same checkout, exactly when their first 8 characters agree |
| GitWorktree.WorktreeLocation | src-tauri/src/multi_session/git_worktree.rs:15-19 | the checkout's parent directory is ".claudia-worktrees" under the repository's parent, that is beside the repository; a repository path with no parent falls back to the repository itself, so there the directory lies inside the repository |
| GitWorktree.RemoveToleratesMissingWorktree | src-tauri/src/multi_session/git_worktree.rs:73-79 | a failed removal whose error output contains "not a working tree" anywhere still succeeds |
| GitWorktree.CommitToleratesCleanTree | src-tauri/src/multi_session/git_worktree.rs:119-131 | a failed commit whose error output contains "nothing to commit" anywhere still succeeds, once staging has run |
| GitWorktree.RemoveOutcome | src-tauri/src/multi_session/git_worktree.rs:65-88 | removal succeeds exactly when git ran and either succeeded or reported "not a working tree"; the branch deletion never affects the outcome |
| GitWorktree.CommitOutcome | src-tauri/src/multi_session/git_worktree.rs:110-134 | commit succeeds exactly when both git runs launched and the commit either succeeded or reported "nothing to commit"; the staging status is ignored |
| GitWorktree.LastSomeIsLast | src-tauri/src/multi_session/git_worktree.rs:170-182 | the backwards scan's reference meaning: nothing found exactly when no entry is present, otherwise the found entry is followed only by absent ones |
| GitWorktree.LastSummaryIsLastMatch | src-tauri/src/multi_session/git_worktree.rs:170-183 | when no line matches the summary grammar the result is absent (zero counts); otherwise the last matching line decides, whatever matched before it |
| GitWorktree.ParseDiffStats | src-tauri/src/multi_session/git_worktree.rs:160-186 | the loop that walks lines from the end and stops at the first match computes the counts of the last matching line, or zeros |
| GitWorktree.DiffStatsOutcome | src-tauri/src/multi_session/git_worktree.rs:90-108 | it is an error exactly when git could not be launched; a failed diff gives zero counts; a successful diff gives the parsed counts |
| GitWorktree.GetDiffStats | src-tauri/src/multi_session/git_worktree.rs:90-108 | running the parser method over git's output yields the outcome rule above |
| GitWorktree.SummaryLineRoundTrip | src-tauri/src/multi_session/git_worktree.rs:167-180 | "F file(s) changed, I insertion(s)(+), D deletion(s)(-)" after any digit-free prefix reads back as exactly (F, I, D); an omitted clause reads as 0 |
| GitWorktree.DiffOutputRoundTrip | src-tauri/src/multi_session/git_worktree.rs:167-185 | whatever per-file lines come first, a final rendered summary line gives back the rendered counts |
| Text.DigitsRoundTrip | src-tauri/src/multi_session/git_worktree.rs:172-180 | reading back the decimal rendering of a count gives that count |
| Process.LaunchFor | src-tauri/src/multi_session/process.rs:16-32 | the program is "claude"; the configured working directory wins over the worktree; arguments and environment come from the configuration |
| Manager.CreatedSessionLaunch | src-tauri/src/multi_session/process.rs:21-32 | the agent of a created session starts in the configured working directory, or else in the worktree derived from its id, with the configured arguments and environment |
| Manager.ResumeLaunchesAsBefore | src-tauri/src/multi_session/manager.rs:133-177 | after a pause and a resume the agent is launched with the same program, directory, arguments and environment as before |
| Process.DetectStatus | src-tauri/src/multi_session/process.rs:104-117 | Ready exactly when a Ready marker occurs; Loading, Running and Completed each exactly when their marker occurs and no earlier group's does; nothing exactly when no marker occurs |
| Process.IsCriticalError | src-tauri/src/multi_session/process.rs:119-124 | true exactly when the line contains FATAL, CRITICAL, "Failed to initialize" or "Permission denied" |
| Process.OnStdoutLine | src-tauri/src/multi_session/process.rs:53-71 | the line is appended verbatim; the status changes only to a status the line announces; the status change, if any, is published before the line itself |
| Process.OnStderrLine | src-tauri/src/multi_session/process.rs:85-97 | the line is appended behind "[ERROR] "; a critical line also sets status Error with the raw line as message and publishes it; any other line changes nothing else |
| Process.SendInput | src-tauri/src/multi_session/process.rs:126-137 | with a piped stdin, the input and exactly one "\n" are written; without one the call succeeds and writes nothing; a failed write is reported |
| Process.SendAllAppendsFramed | src-tauri/src/multi_session/process.rs:126-137 | successive successful sends leave on stdin exactly the earlier content followed by each input, in order, each ended by one newline |
| Process.CriticalMarkerAnywhere | src-tauri/src/multi_session/process.rs:119-124 | a critical marker surrounded by any text makes the line critical |
| Process.ReadyMarkerWins | src-tauri/src/multi_session/process.rs:106-107 | a line containing "Ready" or "Human:" classifies as Ready whatever surrounds the marker |
| Process.LowerCaseIsNotAMarker | src-tauri/src/multi_session/process.rs:104-117 | matching is case-sensitive: "ready" classifies as nothing |
| Process.QuietLineKeepsStatus | src-tauri/src/multi_session/process.rs:58-70 | a stdout line announcing nothing keeps the status and publishes only the line |
| Process.ErrorStatusIsNotFinal | src-tauri/src/multi_session/process.rs:53-64 | a session in Error that prints "Ready" becomes Ready again |
| AutoYes.NewManager | src-tauri/src/multi_session/auto_yes.rs:25-53 | four built-in patterns in fixed order (confirmation ending "yes", "press enter to continue" "", "would you like to" "yes", "is this correct" "yes"), polled every 2 seconds |
| AutoYes.AddPattern | src-tauri/src/multi_session/auto_yes.rs:55-63 | a pattern that does not compile is reported and nothing changes; otherwise the old list is kept as a prefix and the new pattern is appended last |
| AutoYes.FirstPatternOn | src-tauri/src/multi_session/auto_yes.rs:115-119 | the result is a matching pattern with no earlier pattern matching; nothing exactly when no pattern matches |
| AutoYes.FirstPromptIn | src-tauri/src/multi_session/auto_yes.rs:114-122 | the result comes from the first examined line any pattern matches; nothing exactly when no examined line matches |
| AutoYes.DetectPrompt | src-tauri/src/multi_session/auto_yes.rs:105-123 | the output is split into lines and only the last min(5, count) are examined; nothing exactly when no pattern matches any of them; otherwise the verdict is the first matching pattern on a line of that window after which no line matches, so the newest matching line decides |
| AutoYes.WindowScan | src-tauri/src/multi_session/auto_yes.rs:112-122 | scanning the reversed last-five window front to back finds exactly the newest matching line of the window |
| AutoYes.IsSafePrompt | src-tauri/src/multi_session/auto_yes.rs:125-147 | unsafe exactly when one of the eight dangerous words occurs in any ASCII letter case |
| AutoYes.DangerousWordInAnyCase | src-tauri/src/multi_session/auto_yes.rs:126-146 | a dangerous word written in any mix of cases, with any text around it, makes the prompt unsafe |
| AutoYes.CheckAllSessions | src-tauri/src/multi_session/auto_yes.rs:84-103 | at most one answer per session summary; an answer is sent exactly when some summary yields it; summaries with distinct ids never receive two answers for one session |
| AutoYes.CheckAllSessionsInOrder | src-tauri/src/multi_session/auto_yes.rs:87-102 | answers are sent in the order of the summaries: checking a concatenation sends the first part's answers, then the second's |
| AutoYes.OneSummaryAnswer | src-tauri/src/multi_session/auto_yes.rs:88-101 | a single summary receives exactly its own answer, or nothing |
| AutoYes.EmptyOutputHasNoPrompt | src-tauri/src/multi_session/auto_yes.rs:106-109 | empty output never yields a prompt |
| AutoYes.OnlyLastFiveLinesMatter | src-tauri/src/multi_session/auto_yes.rs:112 | lines before the last five never change the verdict |
| AutoYes.NewestMatchingLineWins | src-tauri/src/multi_session/auto_yes.rs:112-120 | when the newest line matches some pattern, its first matching pattern is the verdict whatever older lines hold |
| AutoYes.OneLineOutput | src-tauri/src/multi_session/auto_yes.rs:105-120 | output without a line break is judged on that single line |
| AutoYes.AnsweredOnlyWhenEligible | src-tauri/src/multi_session/auto_yes.rs:87-101 | every answer goes to a summary with auto-yes on, status Ready and a detected prompt, and the text sent is that pattern's response |
| AutoYes.AddedPatternNeverOverrides | src-tauri/src/multi_session/auto_yes.rs:55-62 | after adding a pattern, a line an old pattern matched keeps its verdict; any other line is claimed exactly when the new pattern matches it |
| AutoYes.PressEnterIsAnsweredYes | src-tauri/src/multi_session/auto_yes.rs:26-36 | "Press enter to continue" is claimed by the first pattern, so it is answered "yes" rather than with an empty line |
| AutoYes.DestructivePromptIsUnsafe | src-tauri/src/multi_session/auto_yes.rs:125-146 | "Delete files? Continue?" fails the safety check |
| AutoYes.UnsafePromptIsStillAnswered | src-tauri/src/multi_session/auto_yes.rs:84-103 | a Ready auto-yes session showing that prompt is nevertheless answered "yes" |
| Manager.NewSessionManager | src-tauri/src/multi_session/manager.rs:23-34 | the registry starts empty with the given limit |
| Manager.CreateSession | src-tauri/src/multi_session/manager.rs:40-102 | at or over the limit it fails and changes nothing; any failure changes nothing; it succeeds exactly when there is room and worktree, record and spawn all succeed, and then exactly the new id is added, Running with a fresh process, on the derived branch and checkout, with creation published; the registry invariant (size within the limit, entries filed under their own ids) is preserved |
| Manager.TerminateSession | src-tauri/src/multi_session/manager.rs:104-131 | an unknown id fails and changes nothing; a known id is removed even if worktree removal or the record update then fails; success (and its event) exactly when removal and record update succeed |
| Manager.PauseSession | src-tauri/src/multi_session/manager.rs:133-155 | an unknown id fails; a failed commit changes nothing; otherwise, whatever the prior status, the process is detached and the status is Paused, and only the record update decides the result |
| Manager.ResumeSession | src-tauri/src/multi_session/manager.rs:157-177 | only a Paused session resumes; a failed spawn changes nothing; otherwise a fresh process is attached and the status is Running |
| Manager.SendInput | src-tauri/src/multi_session/manager.rs:179-192 | an unknown id or a session with no process fails and changes nothing; otherwise the process receives the input and one newline |
| Manager.GetSessionOutput | src-tauri/src/multi_session/manager.rs:194-200 | an unknown id fails; otherwise the last `lines` buffered lines, oldest first |
| Manager.GetMultiSessionOutput | src-tauri/src/commands/multi_session.rs:78-89 | an unknown id fails with "not found"; a given count n returns the last n buffered lines; with no count given, the last 50 |
| Manager.GetSessionDiff | src-tauri/src/multi_session/manager.rs:202-214 | an unknown id fails; a failed diff gives zero counts; otherwise the worktree's diff outcome |
| Manager.InsertNewestFirst | src-tauri/src/multi_session/manager.rs:225 | inserting into a newest-first list keeps it newest first, adds exactly the one summary and loses none |
| Manager.SortedSummaries | src-tauri/src/multi_session/manager.rs:216-226 | the loop visits every entry exactly once, in the map's order, which it returns; the result is newest first and, as a multiset, exactly the summaries of the visited entries, so two entries with equal summaries give that summary twice; every listed summary is some entry's, and every entry's summary is listed |
| Manager.ListActiveSessions | src-tauri/src/multi_session/manager.rs:216-227 | one summary per registry entry, every summary from an entry, ordered by creation time descending; when every entry is filed under its own id, no id is listed twice |
| Manager.UpdateSessionConfig | src-tauri/src/multi_session/manager.rs:229-253 | as written: the registry is left exactly as it was; the call succeeds exactly when the session exists and the database write succeeds |
| Manager.UpdateSessionConfigCorrected | src-tauri/src/multi_session/manager.rs:238-241 | as intended: the session's auto-yes flag takes the requested value; no other field and no other session changes |
| Manager.DeliverStdoutLine | src-tauri/src/multi_session/process.rs:46-71 | a stdout line changes only its own session: the line is pushed onto its ring, the status becomes the announced one if any, the update time is set and nothing else changes (process, configuration and error message included); the events are the status change, if any, then the appended line, under the session's id |
| Manager.DeliverStderrLine | src-tauri/src/multi_session/process.rs:76-97 | a stderr line changes only its own session: "[ERROR] " + the line is pushed onto its ring; a critical line sets status Error and the raw line as error message and publishes it; any other line keeps status and message and publishes nothing; the update time is set and nothing else changes |
| Manager.AnswersGoToAnswerable | src-tauri/src/multi_session/auto_yes.rs:84-103 | given the listing of a registry whose entries are filed under their own ids, every answer goes to a registered session with auto-yes on and status Ready and is that session's own answer; every session with an answer gets it; no session is answered twice |
| Manager.Answered | src-tauri/src/multi_session/manager.rs:179-192 | with a piped stdin and a successful write the input and one newline are appended to what the agent received; otherwise the session is unchanged |
| Manager.SendInputAnswers | src-tauri/src/multi_session/manager.rs:179-192 | sending input changes only the addressed session, exactly as above, whatever the result |
| Manager.AfterTick | src-tauri/src/multi_session/auto_yes.rs:84-103 | a session with auto-yes on, status Ready, a prompt detected in its preview, a piped stdin and a successful write receives that pattern's response and one newline; every other session is left exactly as it was |
| Manager.AutoYesTick | src-tauri/src/multi_session/auto_yes.rs:84-103 | a daemon tick keeps the set of sessions and the limit, and leaves every session exactly as `Manager.AfterTick` describes |
| Manager.FreshCreateAddsOne | src-tauri/src/multi_session/manager.rs:90-94 | a successful create under a fresh id grows the registry by exactly one |
| Manager.PausedSessionsCountTowardLimit | src-tauri/src/multi_session/manager.rs:47-50 | pausing a session of a full registry does not make room for another create |
| Manager.InputRefusedWhilePaused | src-tauri/src/multi_session/manager.rs:179-189 | after a pause took effect, input to that session fails because no process is attached |
| Manager.PauseResumeKeepsBinding | src-tauri/src/multi_session/manager.rs:133-177 | pause then resume gives a Running session with a fresh process on the same worktree, branch and auto-yes flag |
| Manager.TerminatedSessionIsGone | src-tauri/src/multi_session/manager.rs:104-109 | after termination, input to the session reports "not found" and no listed summary carries its id |
| Manager.DefaultSessionScenario | src-tauri/src/multi_session/manager.rs:53-94 | with the default configuration a new session runs on branch "claudia-session-" + the first 8 characters of its id and its agent starts in its own worktree |
| Manager.UpdatedAutoYesIsLost | src-tauri/src/multi_session/manager.rs:238-252 | the update as written reports success while the session keeps its old auto-yes flag |
| Manager.CorrectedUpdateReachesSummary | src-tauri/src/multi_session/manager.rs:238-241 | with the corrected update, the session's next summary, which the daemon reads, carries the new flag |

## Left out

- Database persistence (`store_session_in_db`, `update_session_status_in_db`, the SQL in `update_session_config`): each write is a success/failure parameter, and the rows are not modelled.
- Running git and the agent (`Command::new`, `spawn`, `kill`, `try_wait`, `check_process_health`): each run is an outcome parameter. `create`, `is_git_repo` and `get_current_branch` are reduced to one "worktree created" outcome.
- The `Drop` impl of `GitWorktree` (git_worktree.rs:189-193), which runs `remove` whenever a handle goes out of scope. The handle in `create_session` is a local, so this runs on every exit of that function, the success return included. The same happens to the temporary handles built by terminate, pause and diff. This is a filesystem side effect. The model keeps only the registry's record of the checkout path and does not claim that the checkout still exists.
- tokio locks, the spawned reader tasks and their interleaving, the broadcast channel and its capacity of 1000, and the `start_monitoring` ticker and shutdown receiver. The model delivers reader lines and daemon ticks one at a time. The admission check (manager.rs:47) and the insert (manager.rs:94) are not atomic, so concurrent creates can overshoot the limit. A sequential model cannot express that race.
- A reader task of a session already removed from the registry keeps updating its own copy of the session. `Manager.DeliverStdoutLine` and `Manager.DeliverStderrLine` only model lines of registered sessions.
- Timestamps are natural numbers and RFC 3339 rendering is not modelled. Summaries compare the numbers.
- Regular expressions are written out as recognisers. `\d` and `\s` are restricted to ASCII, and `(?i)` is ASCII case folding. Patterns added with `add_pattern` are represented by their match predicate, and compiling one is an outcome parameter.
- The short id is taken as the first 8 characters of the session id. The code's `&session_id[..8]` (git_worktree.rs:14-15) slices 8 bytes and panics off a character boundary. Ids come from `Uuid::new_v4().to_string()` (session.rs:89), which is ASCII, so the two agree. Ids shorter than 8 are excluded by a precondition, where the code would panic.
- Counts are unbounded naturals. The `usize` overflow that makes `parse().unwrap_or(0)` yield 0 is not modelled.
- Process.SendInput: a write that fails partway is modelled as writing nothing. The real stream may already hold part of the input.
- `subscribe_events` and the manual `Clone` impl only wire channels and handles.
- `start_auto_yes_daemon` (manager.rs:298-306) passes `self.event_tx.subscribe()`, a receiver of `SessionEvent`s, as the shutdown receiver. `start_monitoring` (auto_yes.rs:65-68) declares a receiver of `()`, so as written the two do not type-check. If the types were unified, the first session event published would end the daemon's loop (auto_yes.rs:77-79). This is channel wiring and task lifetime, so it is left out with the rest of the concurrency. The model's `Manager.AutoYesTick` describes one tick of a daemon that is still running.
- The Tauri command wrappers only map errors to strings. Their one behaviour, the default of 50 lines, is `Manager.GetMultiSessionOutput`.

## Findings

| source | as written | input that shows it | evidently intended | confidence | as-written member | corrected member |
|---|---|---|---|---|---|---|
| src-tauri/src/multi_session/manager.rs:238-252 | the new auto-yes value is written into a clone of the configuration, which is then dropped; only the database row changes | a session with auto-yes off, updated with auto-yes on: the call returns success, but the session in memory (and so the daemon) still sees auto-yes off | the running session's auto-yes flag takes the new value, as the comment "we can only update auto_yes without restarting" says | high; not executed | Manager.UpdateSessionConfig, Manager.UpdatedAutoYesIsLost | Manager.UpdateSessionConfigCorrected, Manager.CorrectedUpdateReachesSummary |

=== FILE: auto_yes.dfy ===
/** Auto-yes: recognising confirmation prompts in a session's recent output and choosing the
    canned answer. */
module AutoYes {
  import opened Results
  import opened Seqs
  import opened Text
  import opened Types

  /** What decides whether a pattern matches one line. The four built-in regular expressions are
      written out as the first two shapes; a pattern added later is a compiled regular expression,
      represented here by its match predicate. */
  datatype Matcher =
    | ConfirmationEnding
    | Phrase(lowerText: string)
    | Custom(isMatch: string -> bool)

  datatype PromptPattern = PromptPattern(matcher: Matcher, response: string, description: string)

  datatype AutoYesManager = AutoYesManager(patterns: seq<PromptPattern>, pollIntervalSeconds: nat)

  /** `\s` restricted to ASCII: space, tab, line feed, vertical tab, form feed, carriage return. */
  predicate IsSpace(c: char) {
    c == ' ' || '\t' <= c <= '\r'
  }

  predicate AllSpaces(t: string) {
    forall i :: 0 <= i < |t| ==> IsSpace(t[i])
  }

  function LeadingSpaces(t: string): (k: nat)
    ensures k <= |t|
    ensures AllSpaces(t[..k])
    ensures k < |t| ==> !IsSpace(t[k])
  {
    if t != [] && IsSpace(t[0]) then
      var k := 1 + LeadingSpaces(t[1..]);
      assert t[..k] == [t[0]] + t[1..][..k - 1];
      k
    else 0
  }

  /** `\s*[?:]?\s*$`: what may follow the confirmation word up to the end of the line. */
  predicate ConfirmationTail(t: string) {
    var rest := t[LeadingSpaces(t)..];
    AllSpaces(rest) || (rest[0] in "?:" && AllSpaces(rest[1..]))
  }

  const ConfirmationWords: seq<string> := ["continue", "proceed", "yes/no", "y/n"]

  /** The line, lower-cased, has a confirmation word ending at index `q`, and only the allowed
      tail follows it. */
  predicate ConfirmationAt(line: string, q: int) {
    && 0 <= q <= |line|
    && (exists w | w in ConfirmationWords :: EndsWith(LowerStr(line[..q]), w))
    && ConfirmationTail(line[q..])
  }

  /** `(?i)(continue|proceed|yes/no|y/n)\s*[?:]?\s*$`, searched anywhere in the line. */
  predicate ConfirmationEnds(line: string) {
    exists q | 0 <= q <= |line| :: ConfirmationAt(line, q)
  }

  predicate Matches(m: Matcher, line: string) {
    match m
    case ConfirmationEnding => ConfirmationEnds(line)
    case Phrase(text) => ContainsIgnoreCase(line, text)
    case Custom(isMatch) => isMatch(line)
  }

  /** `AutoYesManager::new`: the built-in patterns in their fixed order, polled every 2 seconds. */
  function NewManager(): (a: AutoYesManager)
    ensures |a.patterns| == 4 && a.pollIntervalSeconds == 2
    ensures a.patterns[0].matcher == ConfirmationEnding && a.patterns[0].response == "yes"
    ensures a.patterns[1].matcher == Phrase("press enter to continue") && a.patterns[1].response == ""
    ensures a.patterns[2].matcher == Phrase("would you like to") && a.patterns[2].response == "yes"
    ensures a.patterns[3].matcher == Phrase("is this correct") && a.patterns[3].response == "yes"
  {
    AutoYesManager(
      [ PromptPattern(ConfirmationEnding, "yes", "General confirmation prompts"),
        PromptPattern(Phrase("press enter to continue"), "", "Press enter prompts"),
        PromptPattern(Phrase("would you like to"), "yes", "Would you like prompts"),
        PromptPattern(Phrase("is this correct"), "yes", "Confirmation prompts") ],
      2)
  }

  /** `add_pattern`: a pattern that fails to compile is reported and nothing changes; otherwise
      the new pattern goes to the end of the list. */
  function AddPattern(a: AutoYesManager, compiled: Result<Matcher, string>, response: string,
                      description: string): (r: Result<AutoYesManager, string>)
    ensures compiled.Err? ==> r.Err? && r.error == compiled.error
    ensures compiled.Ok? ==> r.Ok? && |r.value.patterns| == |a.patterns| + 1
    ensures compiled.Ok? ==> r.value.patterns[..|a.patterns|] == a.patterns
    ensures compiled.Ok? ==> r.value.patterns[|a.patterns|].matcher == compiled.value
                             && r.value.patterns[|a.patterns|].response == response
  {
    match compiled
    case Err(e) => Err(e)
    case Ok(m) => Ok(a.(patterns := a.patterns + [PromptPattern(m, response, description)]))
  }

  /** The first pattern, in list order, that matches `line`. */
  function FirstPatternOn(patterns: seq<PromptPattern>, line: string): (r: Option<nat>)
    ensures r.Some? ==> r.value < |patterns| && Matches(patterns[r.value].matcher, line)
    ensures r.Some? ==> forall j :: 0 <= j < r.value ==> !Matches(patterns[j].matcher, line)
    ensures r.None? <==> forall j :: 0 <= j < |patterns| ==> !Matches(patterns[j].matcher, line)
    decreases |patterns|
  {
    if patterns == [] then None
    else if Matches(patterns[0].matcher, line) then Some(0)
    else match FirstPatternOn(patterns[1..], line)
      case None => None
      case Some(k) => Some(k + 1)
  }

  /** Lines to inspect, examined in the given order; the first line any pattern matches decides. */
  function FirstPromptIn(patterns: seq<PromptPattern>, recent: seq<string>): (r: Option<nat>)
    ensures r.Some? ==> r.value < |patterns|
    ensures r.Some? ==> exists i :: 0 <= i < |recent| && FirstPatternOn(patterns, recent[i]) == r
                                    && forall j :: 0 <= j < i ==> FirstPatternOn(patterns, recent[j]).None?
    ensures r.None? <==> forall i :: 0 <= i < |recent| ==> FirstPatternOn(patterns, recent[i]).None?
    decreases |recent|
  {
    if recent == [] then None
    else
      var here := FirstPatternOn(patterns, recent[0]);
      if here.Some? then here
      else
        var later := FirstPromptIn(patterns, recent[1..]);
        assert forall i :: 1 <= i < |recent| ==> recent[1..][i - 1] == recent[i];
        later
  }

  /** How many of the most recent lines are examined. */
  const RecentWindow: nat := 5

  /** The last five lines, newest first. */
  function RecentLines(lines: seq<string>): seq<string> {
    Reverse(LastN(lines, RecentWindow))
  }

  /** Index of the oldest line in the window of recent lines. */
  function WindowStart(lines: seq<string>): (lo: nat)
    ensures lo <= |lines| && |lines| - lo == Min(RecentWindow, |lines|)
  {
    |lines| - Min(RecentWindow, |lines|)
  }

  /** Scanning the reversed window front to back is scanning the window newest line first. */
  lemma {:induction false} WindowScan(patterns: seq<PromptPattern>, lines: seq<string>)
    ensures var r := FirstPromptIn(patterns, RecentLines(lines));
            && (r.None? <==> forall k :: WindowStart(lines) <= k < |lines| ==> FirstPatternOn(patterns, lines[k]).None?)
            && (r.Some? ==> exists k :: WindowStart(lines) <= k < |lines| && FirstPatternOn(patterns, lines[k]) == r
                                        && forall j :: k < j < |lines| ==> FirstPatternOn(patterns, lines[j]).None?)
  {
    var recent := RecentLines(lines);
    var lo := WindowStart(lines);
    var last := LastN(lines, RecentWindow);
    assert forall i :: 0 <= i < |last| ==> last[i] == lines[lo + i];
    assert |recent| == |lines| - lo;
    assert forall i :: 0 <= i < |recent| ==> recent[i] == lines[|lines| - 1 - i];
    var r := FirstPromptIn(patterns, recent);
    if r.Some? {
      var i :| 0 <= i < |recent| && FirstPatternOn(patterns, recent[i]) == r
               && forall j :: 0 <= j < i ==> FirstPatternOn(patterns, recent[j]).None?;
      var k := |lines| - 1 - i;
      assert recent[i] == lines[k];
      forall j | k < j < |lines|
        ensures FirstPatternOn(patterns, lines[j]).None?
      {
        assert recent[|lines| - 1 - j] == lines[j];
      }
      assert lo <= k < |lines|;
    } else {
      forall k | lo <= k < |lines|
        ensures FirstPatternOn(patterns, lines[k]).None?
      {
        assert recent[|lines| - 1 - k] == lines[k];
      }
    }
  }

  /** The verdict on a list of lines: the first pattern, in list order, on the newest line of
      the last five that any pattern matches; none when no line of the window matches. */
  function DetectInLines(patterns: seq<PromptPattern>, lines: seq<string>): (r: Option<nat>)
    ensures r.Some? ==> r.value < |patterns|
    ensures r.None? <==> forall k :: WindowStart(lines) <= k < |lines| ==> FirstPatternOn(patterns, lines[k]).None?
    ensures r.Some? ==> exists k :: WindowStart(lines) <= k < |lines| && FirstPatternOn(patterns, lines[k]) == r
                                    && forall j :: k < j < |lines| ==> FirstPatternOn(patterns, lines[j]).None?
  {
    WindowScan(patterns, lines);
    if lines == [] then None else FirstPromptIn(patterns, RecentLines(lines))
  }

  /** `detect_prompt`: the index of the matching pattern (`detect_prompt` returns a reference
      into the same list). The output is split into lines; among its last five lines the newest
      one that some pattern matches decides, and on it the first matching pattern in list order. */
  function DetectPrompt(a: AutoYesManager, output: string): (r: Option<nat>)
    ensures r.Some? ==> r.value < |a.patterns|
    ensures var ls := Lines(output);
            r.None? <==> forall k :: WindowStart(ls) <= k < |ls| ==> FirstPatternOn(a.patterns, ls[k]).None?
    ensures var ls := Lines(output);
            r.Some? ==> exists k :: WindowStart(ls) <= k < |ls| && FirstPatternOn(a.patterns, ls[k]) == r
                                    && forall j :: k < j < |ls| ==> FirstPatternOn(a.patterns, ls[j]).None?
  {
    DetectInLines(a.patterns, Lines(output))
  }

  const DangerousWords: seq<string> :=
    ["delete", "remove", "force", "overwrite", "destructive", "permanent", "cannot be undone", "are you sure"]

  /** `is_safe_prompt`: unsafe exactly when one of the dangerous words occurs in any letter case. */
  function IsSafePrompt(output: string): (r: bool)
    ensures r <==> forall w | w in DangerousWords :: !ContainsIgnoreCase(output, w)
  {
    !ContainsIgnoreCase(output, "delete") && !ContainsIgnoreCase(output, "remove")
    && !ContainsIgnoreCase(output, "force") && !ContainsIgnoreCase(output, "overwrite")
    && !ContainsIgnoreCase(output, "destructive") && !ContainsIgnoreCase(output, "permanent")
    && !ContainsIgnoreCase(output, "cannot be undone") && !ContainsIgnoreCase(output, "are you sure")
  }

  datatype AutoResponse = AutoResponse(sessionId: string, response: string)

  /** The decision for one session summary: only a session with auto-yes on and status Ready is
      considered, and it is answered with the detected pattern's response. */
  function Answer(a: AutoYesManager, info: SessionInfo): (r: Option<AutoResponse>)
    ensures r.Some? ==> r.value.sessionId == info.id && info.autoYes && info.status == Ready
  {
    if !info.autoYes || info.status != Ready then None
    else match DetectPrompt(a, info.outputPreview)
      case None => None
      case Some(k) => Some(AutoResponse(info.id, a.patterns[k].response))
  }

  /** No two summaries are about the same session. */
  predicate DistinctIds(infos: seq<SessionInfo>) {
    forall i, j :: 0 <= i < j < |infos| ==> infos[i].id != infos[j].id
  }

  /** No session is sent two inputs. */
  predicate DistinctTargets(sent: seq<AutoResponse>) {
    forall k, l :: 0 <= k < l < |sent| ==> sent[k].sessionId != sent[l].sessionId
  }

  /** When no two summaries share an id, no answer to a later summary targets the first one. */
  lemma TailAnswersAvoidHead(a: AutoYesManager, infos: seq<SessionInfo>, rest: seq<AutoResponse>)
    requires infos != []
    requires forall x | x in rest :: exists i :: 0 <= i < |infos[1..]| && Answer(a, infos[1..][i]) == Some(x)
    ensures DistinctIds(infos) ==> forall x | x in rest :: x.sessionId != infos[0].id
  {
    forall x | x in rest && DistinctIds(infos)
      ensures x.sessionId != infos[0].id
    {
      var i :| 0 <= i < |infos[1..]| && Answer(a, infos[1..][i]) == Some(x);
      assert infos[1..][i] == infos[i + 1];
    }
  }

  /** Putting an answer in front of answers to other sessions keeps the targets distinct. */
  lemma PrependDistinctTarget(r: AutoResponse, rest: seq<AutoResponse>)
    ensures DistinctTargets(rest) && (forall x | x in rest :: x.sessionId != r.sessionId) ==>
              DistinctTargets([r] + rest)
  {
    var s := [r] + rest;
    forall k, l | 0 <= k < l < |s| && DistinctTargets(rest) && (forall x | x in rest :: x.sessionId != r.sessionId)
      ensures s[k].sessionId != s[l].sessionId
    {
      if k == 0 {
        assert s[l] in rest;
      } else {
        assert s[k] == rest[k - 1] && s[l] == rest[l - 1];
      }
    }
  }

  lemma DistinctIdsOfTail(infos: seq<SessionInfo>)
    requires infos != []
    ensures DistinctIds(infos) ==> DistinctIds(infos[1..])
  {
    assert forall i :: 0 <= i < |infos| - 1 ==> infos[1..][i] == infos[i + 1];
  }

  /** `check_all_sessions`, as the list of inputs it sends, in list order. */
  function CheckAllSessions(a: AutoYesManager, infos: seq<SessionInfo>): (sent: seq<AutoResponse>)
    ensures |sent| <= |infos|
    ensures forall r :: r in sent <==> exists i :: 0 <= i < |infos| && Answer(a, infos[i]) == Some(r)
    ensures DistinctIds(infos) ==> DistinctTargets(sent)
    decreases |infos|
  {
    if infos == [] then []
    else
      var rest := CheckAllSessions(a, infos[1..]);
      assert forall i :: 1 <= i < |infos| ==> infos[1..][i - 1] == infos[i];
      DistinctIdsOfTail(infos);
      match Answer(a, infos[0])
      case Some(r) =>
        TailAnswersAvoidHead(a, infos, rest);
        PrependDistinctTarget(r, rest);
        AnswersOfCons(a, infos, rest, [r] + rest);
        [r] + rest
      case None =>
        AnswersOfCons(a, infos, rest, rest);
        rest
  }

  /** The answers to a list are the head's answer, if any, followed by the answers to the tail. */
  lemma AnswersOfCons(a: AutoYesManager, infos: seq<SessionInfo>, rest: seq<AutoResponse>, sent: seq<AutoResponse>)
    requires infos != []
    requires forall r :: r in rest <==> exists i :: 0 <= i < |infos[1..]| && Answer(a, infos[1..][i]) == Some(r)
    requires sent == (match Answer(a, infos[0]) case Some(r) => [r] + rest case None => rest)
    ensures forall r :: r in sent <==> exists i :: 0 <= i < |infos| && Answer(a, infos[i]) == Some(r)
  {
    forall r
      ensures r in sent <==> exists i :: 0 <= i < |infos| && Answer(a, infos[i]) == Some(r)
    {
      if r in rest {
        var i :| 0 <= i < |infos[1..]| && Answer(a, infos[1..][i]) == Some(r);
        assert infos[1..][i] == infos[i + 1];
      }
      if exists i :: 0 <= i < |infos| && Answer(a, infos[i]) == Some(r) {
        var i :| 0 <= i < |infos| && Answer(a, infos[i]) == Some(r);
        if i > 0 {
          assert infos[1..][i - 1] == infos[i];
        }
      }
    }
  }

  // -------------------------------------------------------------------------------------
  // Properties of the detector and of the daemon's filter.
  // -------------------------------------------------------------------------------------

  lemma EmptyOutputHasNoPrompt(a: AutoYesManager)
    ensures DetectPrompt(a, "") == None
  {
  }

  /** Lines before the last five never change the verdict. */
  lemma OnlyLastFiveLinesMatter(patterns: seq<PromptPattern>, older: seq<string>, lines: seq<string>)
    requires |lines| >= RecentWindow
    ensures DetectInLines(patterns, older + lines) == DetectInLines(patterns, lines)
  {
    LastNOfLonger(older, lines, RecentWindow);
  }

  /** Newest first: when the last line matches some pattern, it decides, whatever the older
      lines hold. */
  lemma NewestMatchingLineWins(patterns: seq<PromptPattern>, lines: seq<string>)
    requires lines != [] && FirstPatternOn(patterns, lines[|lines| - 1]).Some?
    ensures DetectInLines(patterns, lines) == FirstPatternOn(patterns, lines[|lines| - 1])
  {
    var recent := RecentLines(lines);
    assert recent[0] == lines[|lines| - 1];
  }

  /** Every answer goes to a session whose summary has auto-yes on and status Ready. Nothing
      else is checked: in particular no safety test is applied to the prompt. */
  lemma AnsweredOnlyWhenEligible(a: AutoYesManager, infos: seq<SessionInfo>)
    ensures forall r | r in CheckAllSessions(a, infos) ::
              exists i :: 0 <= i < |infos| && infos[i].id == r.sessionId && infos[i].autoYes
                          && infos[i].status == Ready && DetectPrompt(a, infos[i].outputPreview).Some?
                          && r.response == a.patterns[DetectPrompt(a, infos[i].outputPreview).value].response
  {
    forall r | r in CheckAllSessions(a, infos)
      ensures exists i :: 0 <= i < |infos| && infos[i].id == r.sessionId && infos[i].autoYes
                          && infos[i].status == Ready && DetectPrompt(a, infos[i].outputPreview).Some?
                          && r.response == a.patterns[DetectPrompt(a, infos[i].outputPreview).value].response
    {
      var i :| 0 <= i < |infos| && Answer(a, infos[i]) == Some(r);
    }
  }

  /** A pattern added later never takes a line away from an earlier pattern; it only decides
      lines no earlier pattern matched. */
  lemma AddedPatternNeverOverrides(a: AutoYesManager, m: Matcher, response: string, description: string,
                                   line: string)
    ensures var r := AddPattern(a, Ok(m), response, description);
            r.Ok? &&
            (FirstPatternOn(a.patterns, line).Some? ==>
               FirstPatternOn(r.value.patterns, line) == FirstPatternOn(a.patterns, line)) &&
            (FirstPatternOn(a.patterns, line).None? ==>
               (FirstPatternOn(r.value.patterns, line).Some? <==> Matches(m, line)))
  {
    var ps := AddPattern(a, Ok(m), response, description).value.patterns;
    assert forall j :: 0 <= j < |a.patterns| ==> ps[j] == a.patterns[j];
  }

  lemma NoNewlineIsOneLine(s: string)
    requires s != [] && '\n' !in s
    ensures Lines(s) == [s]
  {
  }

  /** A witness for `ConfirmationEnds`. */
  lemma ConfirmationWitness(line: string, q: nat, w: string)
    requires q <= |line| && w in ConfirmationWords
    requires EndsWith(LowerStr(line[..q]), w) && ConfirmationTail(line[q..])
    ensures ConfirmationEnds(line)
  {
    assert ConfirmationAt(line, q);
  }

  /** "Press enter to continue" ends with a confirmation word, so the first built-in pattern
      claims it and the answer is "yes", not the empty line the second pattern would send. */
  lemma PressEnterIsAnsweredYes()
    ensures FirstPatternOn(NewManager().patterns, "Press enter to continue") == Some(0)
    ensures NewManager().patterns[0].response == "yes"
  {
    var line := "Press enter to continue";
    var low := LowerStr(line);
    assert low[15..] == "continue";
    assert line[..|line|] == line;
    assert line[|line|..] == "";
    ConfirmationWitness(line, |line|, "continue");
  }

  const DestructivePrompt := "Delete files? Continue?"

  lemma DestructivePromptIsUnsafe()
    ensures !IsSafePrompt(DestructivePrompt)
  {
    var low := LowerStr(DestructivePrompt);
    assert low[0..6] == "delete";
    assert OccursAt(low, "delete", 0);
  }

  /** Any dangerous word, written in any mixture of upper and lower case and surrounded by any
      text, makes the prompt unsafe. */
  lemma DangerousWordInAnyCase(pre: string, word: string, post: string)
    requires LowerStr(word) in DangerousWords
    ensures !IsSafePrompt(pre + word + post)
  {
    LowerStrConcat(pre + word, post);
    LowerStrConcat(pre, word);
    InfixContained(LowerStr(pre), LowerStr(word), LowerStr(post));
  }

  /** What one summary contributes to the answers: its answer, or nothing. */
  function AnswerList(a: AutoYesManager, info: SessionInfo): (r: seq<AutoResponse>)
    ensures |r| <= 1
    ensures r == [] <==> Answer(a, info).None?
  {
    if Answer(a, info).Some? then [Answer(a, info).value] else []
  }

  /** The answers to a non-empty list: the first summary's answer, if any, then the rest's. */
  lemma CheckAllSessionsCons(a: AutoYesManager, infos: seq<SessionInfo>)
    requires infos != []
    ensures CheckAllSessions(a, infos) == AnswerList(a, infos[0]) + CheckAllSessions(a, infos[1..])
  {
  }

  lemma ConsAppend(a: AutoYesManager, xs: seq<SessionInfo>, ys: seq<SessionInfo>)
    requires xs != []
    ensures CheckAllSessions(a, xs + ys) == AnswerList(a, xs[0]) + CheckAllSessions(a, xs[1..] + ys)
  {
    var xy := xs + ys;
    assert xy[0] == xs[0] && xy[1..] == xs[1..] + ys;
    CheckAllSessionsCons(a, xy);
  }

  /** The step of `CheckAllSessionsInOrder`: order is kept when one more summary goes in front. */
  lemma InOrderStep(a: AutoYesManager, xs: seq<SessionInfo>, ys: seq<SessionInfo>)
    requires xs != []
    requires CheckAllSessions(a, xs[1..] + ys) == CheckAllSessions(a, xs[1..]) + CheckAllSessions(a, ys)
    ensures CheckAllSessions(a, xs + ys) == CheckAllSessions(a, xs) + CheckAllSessions(a, ys)
  {
    ConsAppend(a, xs, ys);
    CheckAllSessionsCons(a, xs);
    ConcatAssoc(AnswerList(a, xs[0]), CheckAllSessions(a, xs[1..]), CheckAllSessions(a, ys));
  }

  /** The daemon's answers come in the order of the summaries it was given: checking two lists
      one after the other sends the first list's answers, then the second's. */
  lemma {:induction false} CheckAllSessionsInOrder(a: AutoYesManager, xs: seq<SessionInfo>, ys: seq<SessionInfo>)
    ensures CheckAllSessions(a, xs + ys) == CheckAllSessions(a, xs) + CheckAllSessions(a, ys)
    decreases |xs|
  {
    if xs == [] {
      assert xs + ys == ys;
    } else {
      CheckAllSessionsInOrder(a, xs[1..], ys);
      InOrderStep(a, xs, ys);
    }
  }

  /** A single summary receives exactly the answer `Answer` chooses for it, or nothing. */
  lemma OneSummaryAnswer(a: AutoYesManager, info: SessionInfo)
    ensures Answer(a, info).None? ==> CheckAllSessions(a, [info]) == []
    ensures Answer(a, info).Some? ==> CheckAllSessions(a, [info]) == [Answer(a, info).value]
  {
    assert [info][1..] == [];
  }

  lemma DestructivePromptIsConfirmation()
    ensures FirstPatternOn(NewManager().patterns, DestructivePrompt) == Some(0)
  {
    var q := |DestructivePrompt| - 1;
    assert LowerStr(DestructivePrompt[..q])[14..] == "continue";
    assert DestructivePrompt[q..] == "?";
    assert LeadingSpaces("?") == 0;
    ConfirmationWitness(DestructivePrompt, q, "continue");
  }

  /** Output without a line break is judged on that one line. */
  lemma OneLineOutput(a: AutoYesManager, line: string)
    requires line != [] && '\n' !in line
    ensures DetectPrompt(a, line) == FirstPatternOn(a.patterns, line)
  {
    NoNewlineIsOneLine(line);
    assert RecentLines([line]) == [line];
  }

  lemma DestructivePromptIsOneLine()
    ensures '\n' !in DestructivePrompt
  {
    assert forall i | 0 <= i < |DestructivePrompt| :: DestructivePrompt[i] != '\n';
  }

  lemma DestructivePromptDetected()
    ensures DetectPrompt(NewManager(), DestructivePrompt) == Some(0)
  {
    DestructivePromptIsOneLine();
    OneLineOutput(NewManager(), DestructivePrompt);
    DestructivePromptIsConfirmation();
  }

  /** The daemon answers a destructive prompt that the safety check rejects: the check exists
      but nothing on the answering path calls it. */
  lemma UnsafePromptIsStillAnswered(id: string, now: nat)
    ensures var info := SessionInfo(id, "", "", "", "", Ready, now, now, true, DestructivePrompt, None);
            !IsSafePrompt(DestructivePrompt) &&
            CheckAllSessions(NewManager(), [info]) == [AutoResponse(id, "yes")]
  {
    DestructivePromptIsUnsafe();
    DestructivePromptDetected();
    var info := SessionInfo(id, "", "", "", "", Ready, now, now, true, DestructivePrompt, None);
    assert Answer(NewManager(), info) == Some(AutoResponse(id, "yes"));
  }
}

=== FILE: git_worktree.dfy ===
/** Per-session git worktrees: deterministic naming, the outcome rules of the git commands the
    orchestrator runs, and the parser for the summary line of `git diff --stat`. */
module GitWorktree {
  import opened Results
  import opened Seqs
  import opened Text
  import opened Paths
  import opened Types

  datatype Worktree = Worktree(repoPath: Path, worktreePath: Path, branchName: string)

  /** Directory, next to the repository, that holds every session's checkout. */
  const WorktreesDir := ".claudia-worktrees"

  /** What running a git command produced: it could not be launched at all, or it exited with a
      status and captured output. */
  datatype CommandOutput =
    | LaunchFailed
    | Exited(success: bool, stdout: string, stderr: string)

  datatype GitError =
    | CommandNotRun
    | GitFailed(stderr: string)

  /** `GitWorktree::new`: branch `<prefix>-<first 8 characters of the id>` and checkout
      `<repo parent, or the repo itself>/.claudia-worktrees/session-<first 8 characters>`.
      Slicing the first 8 characters panics on a shorter id; session ids are UUID strings. */
  function NewWorktree(repoPath: Path, sessionId: string, branchPrefix: string): (w: Worktree)
    requires |sessionId| >= 8
    ensures w.repoPath == repoPath
    ensures w.branchName == branchPrefix + "-" + sessionId[..8]
    ensures w.worktreePath == Child(Child(Parent(repoPath).GetOr(repoPath), WorktreesDir),
                                    "session-" + sessionId[..8])
  {
    var short := sessionId[..8];
    var base := Parent(repoPath).GetOr(repoPath);
    Worktree(repoPath, Child(Child(base, WorktreesDir), "session-" + short), branchPrefix + "-" + short)
  }

  /** Two sessions of the same repository and prefix collide on branch or checkout exactly when
      their ids agree on the first 8 characters. */
  lemma NamesDeterminedByShortId(repoPath: Path, a: string, b: string, prefix: string)
    requires |a| >= 8 && |b| >= 8
    ensures NewWorktree(repoPath, a, prefix).branchName == NewWorktree(repoPath, b, prefix).branchName
            <==> a[..8] == b[..8]
    ensures NewWorktree(repoPath, a, prefix).worktreePath == NewWorktree(repoPath, b, prefix).worktreePath
            <==> a[..8] == b[..8]
  {
    var wa := NewWorktree(repoPath, a, prefix);
    var wb := NewWorktree(repoPath, b, prefix);
    if wa.branchName == wb.branchName {
      assert a[..8] == wa.branchName[|prefix| + 1..];
      assert b[..8] == wb.branchName[|prefix| + 1..];
    }
    if wa.worktreePath == wb.worktreePath {
      var na := wa.worktreePath.parts[|wa.worktreePath.parts| - 1];
      var nb := wb.worktreePath.parts[|wb.worktreePath.parts| - 1];
      assert na == nb;
      assert a[..8] == na[8..];
      assert b[..8] == nb[8..];
    }
  }

  /** The checkout's directory is ".claudia-worktrees" under the repository's parent, so it sits
      beside the repository; a repository path with no parent (the root, or an empty relative
      path) puts ".claudia-worktrees" inside the repository itself. */
  lemma WorktreeLocation(repoPath: Path, sessionId: string, prefix: string)
    requires |sessionId| >= 8
    ensures var w := NewWorktree(repoPath, sessionId, prefix);
            Parent(w.worktreePath) == Some(Child(Parent(repoPath).GetOr(repoPath), WorktreesDir))
  {
    var w := NewWorktree(repoPath, sessionId, prefix);
    var base := Child(Parent(repoPath).GetOr(repoPath), WorktreesDir);
    assert w.worktreePath.parts[..|w.worktreePath.parts| - 1] == base.parts;
  }

  /** `remove`: `git worktree remove --force` must run; a failure is forgiven when git reports
      that the path is not a working tree. The branch deletion that follows is best effort and
      never changes the outcome. */
  function RemoveOutcome(removeRun: CommandOutput): (r: Result<(), GitError>)
    ensures r.Ok? <==> (removeRun.Exited? &&
                        (removeRun.success || Contains(removeRun.stderr, "not a working tree")))
    ensures removeRun.LaunchFailed? ==> r == Err(CommandNotRun)
  {
    match removeRun
    case LaunchFailed => Err(CommandNotRun)
    case Exited(success, _, stderr) =>
      if success || Contains(stderr, "not a working tree") then Ok(()) else Err(GitFailed(stderr))
  }

  /** `commit_changes`: `git add -A` must launch (its status is ignored); `git commit` must launch
      and either succeed or report "nothing to commit". */
  function CommitOutcome(addRun: CommandOutput, commitRun: CommandOutput): (r: Result<(), GitError>)
    ensures r.Ok? <==> (addRun.Exited? && commitRun.Exited? &&
                        (commitRun.success || Contains(commitRun.stderr, "nothing to commit")))
  {
    if addRun.LaunchFailed? then Err(CommandNotRun)
    else match commitRun
      case LaunchFailed => Err(CommandNotRun)
      case Exited(success, _, stderr) =>
        if success || Contains(stderr, "nothing to commit") then Ok(()) else Err(GitFailed(stderr))
  }

  /** Removing a worktree that is already gone succeeds: git's "not a working tree" complaint,
      wherever it appears in its error output, is forgiven, so destroying a session's worktree a
      second time is not an error. */
  lemma RemoveToleratesMissingWorktree(stdout: string, pre: string, post: string)
    ensures RemoveOutcome(Exited(false, stdout, pre + "not a working tree" + post)) == Ok(())
  {
    InfixContained(pre, "not a working tree", post);
  }

  /** Committing a worktree with nothing to commit succeeds when git says so anywhere in its
      error output. */
  lemma CommitToleratesCleanTree(addRun: CommandOutput, stdout: string, pre: string, post: string)
    requires addRun.Exited?
    ensures CommitOutcome(addRun, Exited(false, stdout, pre + "nothing to commit" + post)) == Ok(())
  {
    InfixContained(pre, "nothing to commit", post);
  }

  // ---------------------------------------------------------------------------------------
  // Recogniser for  (\d+) files? changed(?:, (\d+) insertions?\(\+\))?(?:, (\d+) deletions?\(-\))?
  // Every reader takes the text that remains and returns the value read with what follows it.
  // ---------------------------------------------------------------------------------------

  /** Length of the run of ASCII digits that opens `t`. */
  function LeadingDigits(t: string): (k: nat)
    ensures k <= |t|
    ensures forall j :: 0 <= j < k ==> IsDigit(t[j])
    ensures k < |t| ==> !IsDigit(t[k])
  {
    if t != [] && IsDigit(t[0]) then 1 + LeadingDigits(t[1..]) else 0
  }

  /** `\d+`, greedy: a shorter run could only be followed by another digit, never by the space
      the grammar needs next, so the whole run is taken. */
  function ReadNumber(t: string): Option<(nat, string)> {
    var k := LeadingDigits(t);
    if k == 0 then None else Some((DigitsValue(t[..k]), t[k..]))
  }

  /** `\d+ <noun>s?<tail>`, trying the plural first as the greedy `s?` does. */
  function ReadCounted(t: string, noun: string, tail: string): Option<(nat, string)> {
    match ReadNumber(t)
    case None => None
    case Some((n, rest)) =>
      var plural := " " + noun + "s" + tail;
      var singular := " " + noun + tail;
      if plural <= rest then Some((n, rest[|plural|..]))
      else if singular <= rest then Some((n, rest[|singular|..]))
      else None
  }

  /** An optional `, \d+ <noun>s?<tail>` group. */
  function ReadClause(t: string, noun: string, tail: string): Option<(nat, string)> {
    if ", " <= t then ReadCounted(t[2..], noun, tail) else None
  }

  /** A match that starts exactly at the beginning of `t`; absent groups leave their count at 0. */
  function SummaryAt(t: string): Option<DiffStats> {
    match ReadCounted(t, "file", " changed")
    case None => None
    case Some((files, afterFiles)) =>
      var ins := ReadClause(afterFiles, "insertion", "(+)");
      var afterIns := if ins.Some? then ins.value.1 else afterFiles;
      var del := ReadClause(afterIns, "deletion", "(-)");
      Some(DiffStats(files, if ins.Some? then ins.value.0 else 0, if del.Some? then del.value.0 else 0))
  }

  /** The unanchored search: the leftmost start at which the pattern matches. */
  function MatchLine(line: string): Option<DiffStats>
    decreases |line|
  {
    var here := SummaryAt(line);
    if here.Some? then here else if line == [] then None else MatchLine(line[1..])
  }

  /** The last present value of a sequence of optional values. */
  function LastSome<T>(xs: seq<Option<T>>): Option<T>
    decreases |xs|
  {
    if xs == [] then None
    else if xs[|xs| - 1].Some? then xs[|xs| - 1]
    else LastSome(xs[..|xs| - 1])
  }

  /** `LastSome` is empty exactly when every entry is, and otherwise it is an entry after which
      every entry is empty. */
  lemma {:induction false} LastSomeIsLast<T>(xs: seq<Option<T>>)
    ensures LastSome(xs) == None <==> forall k :: 0 <= k < |xs| ==> xs[k] == None
    ensures LastSome(xs).Some? ==>
              exists k :: 0 <= k < |xs| && xs[k] == LastSome(xs) &&
                          forall j :: k < j < |xs| ==> xs[j] == None
    decreases |xs|
  {
    if xs != [] {
      var n := |xs| - 1;
      var init := xs[..n];
      assert forall k :: 0 <= k < n ==> init[k] == xs[k];
      LastSomeIsLast(init);
      if xs[n].None? && LastSome(init).Some? {
        var k :| 0 <= k < n && init[k] == LastSome(init) &&
                 forall j :: k < j < n ==> init[j] == None;
        assert xs[k] == LastSome(xs);
      }
    }
  }

  /** The recogniser's verdict on every line. */
  function LineMatches(lines: seq<string>): (ms: seq<Option<DiffStats>>)
    ensures |ms| == |lines|
    ensures forall k :: 0 <= k < |lines| ==> ms[k] == MatchLine(lines[k])
  {
    seq(|lines|, k requires 0 <= k < |lines| => MatchLine(lines[k]))
  }

  /** The reference meaning of the backwards scan: the statistics of the last matching line. */
  function LastSummary(lines: seq<string>): Option<DiffStats> {
    LastSome(LineMatches(lines))
  }

  function ParsedStats(output: string): DiffStats {
    LastSummary(Lines(output)).GetOr(NoChanges)
  }

  /** No line matches: the statistics stay at zero. Otherwise the last matching line decides,
      however many lines before it also match. */
  lemma LastSummaryIsLastMatch(lines: seq<string>)
    ensures LastSummary(lines) == None <==> forall k :: 0 <= k < |lines| ==> MatchLine(lines[k]) == None
    ensures LastSummary(lines).Some? ==>
              exists k :: 0 <= k < |lines| && MatchLine(lines[k]) == LastSummary(lines) &&
                          forall j :: k < j < |lines| ==> MatchLine(lines[j]) == None
  {
    LastSomeIsLast(LineMatches(lines));
  }

  /** `parse_diff_stats`: walk the lines from the last one backwards and stop at the first match. */
  method ParseDiffStats(output: string) returns (stats: DiffStats)
    ensures stats == ParsedStats(output)
  {
    var lines := Lines(output);
    ghost var ms := LineMatches(lines);
    stats := NoChanges;
    var i := |lines|;
    assert ms[..i] == ms;
    while i > 0
      invariant 0 <= i <= |lines|
      invariant LastSome(ms) == LastSome(ms[..i])
      invariant stats == NoChanges
    {
      assert ms[..i][..i - 1] == ms[..i - 1];
      i := i - 1;
      var found := MatchLine(lines[i]);
      if found.Some? {
        stats := found.value;
        return;
      }
    }
  }

  /** `get_diff_stats`: a git that cannot be launched is an error; a failing `git diff` yields
      zero counts rather than an error; otherwise its output is parsed. */
  function DiffStatsOutcome(diffRun: CommandOutput): (r: Result<DiffStats, GitError>)
    ensures diffRun.LaunchFailed? <==> r.Err?
    ensures diffRun.Exited? && !diffRun.success ==> r == Ok(NoChanges)
    ensures diffRun.Exited? && diffRun.success ==> r == Ok(ParsedStats(diffRun.stdout))
  {
    match diffRun
    case LaunchFailed => Err(CommandNotRun)
    case Exited(success, stdout, _) => if success then Ok(ParsedStats(stdout)) else Ok(NoChanges)
  }

  /** `get_diff_stats`, running the parser over the captured output. */
  method GetDiffStats(diffRun: CommandOutput) returns (r: Result<DiffStats, GitError>)
    ensures r == DiffStatsOutcome(diffRun)
  {
    match diffRun
    case LaunchFailed => r := Err(CommandNotRun);
    case Exited(success, stdout, _) =>
      if !success {
        r := Ok(NoChanges);
      } else {
        var stats := ParseDiffStats(stdout);
        r := Ok(stats);
      }
  }

  // ---------------------------------------------------------------------------------------
  // The summary line as git writes it, and the round trip through the recogniser.
  // ---------------------------------------------------------------------------------------

  /** `<n> <noun>[s]<tail>`, singular for one. */
  function Counted(n: nat, noun: string, tail: string): string {
    NatToDigits(n) + " " + noun + (if n == 1 then "" else "s") + tail
  }

  /** `F file(s) changed[, I insertion(s)(+)][, D deletion(s)(-)]`. */
  function SummaryLine(stats: DiffStats, showInsertions: bool, showDeletions: bool): string {
    Counted(stats.filesChanged, "file", " changed")
    + InsertionsPart(showInsertions, stats.insertions)
    + DeletionsPart(showDeletions, stats.deletions)
  }

  lemma {:induction false} LeadingDigitsOfRun(ds: string, rest: string)
    requires AllDigits(ds)
    requires rest == [] || !IsDigit(rest[0])
    ensures LeadingDigits(ds + rest) == |ds|
    decreases |ds|
  {
    if ds != [] {
      assert (ds + rest)[1..] == ds[1..] + rest;
      LeadingDigitsOfRun(ds[1..], rest);
    }
  }

  lemma ReadNumberRendered(n: nat, rest: string)
    requires rest == [] || !IsDigit(rest[0])
    ensures ReadNumber(NatToDigits(n) + rest) == Some((n, rest))
  {
    var ds := NatToDigits(n);
    LeadingDigitsOfRun(ds, rest);
    assert (ds + rest)[..|ds|] == ds;
    assert (ds + rest)[|ds|..] == rest;
    DigitsRoundTrip(n);
  }

  lemma ReadCountedRendered(n: nat, noun: string, tail: string, rest: string)
    requires tail != [] && tail[0] != 's'
    ensures ReadCounted(Counted(n, noun, tail) + rest, noun, tail) == Some((n, rest))
  {
    var ending := if n == 1 then "" else "s";
    var after := " " + noun + ending + tail + rest;
    assert Counted(n, noun, tail) + rest == NatToDigits(n) + after;
    ReadNumberRendered(n, after);
    var plural := " " + noun + "s" + tail;
    var singular := " " + noun + tail;
    if n == 1 {
      assert after == singular + rest;
      assert after[|noun| + 1] == tail[0];
      assert plural[|noun| + 1] == 's';
      assert !(plural <= after);
      assert after[|singular|..] == rest;
    } else {
      assert after == plural + rest;
      assert after[|plural|..] == rest;
    }
  }

  /** A clause of another noun is not mistaken for this one. */
  lemma ReadClauseOtherNoun(n: nat, written: string, tail: string, noun: string, wanted: string)
    requires written != [] && noun != [] && written[0] != noun[0]
    ensures ReadClause(", " + Counted(n, written, tail), noun, wanted) == None
  {
    var t := ", " + Counted(n, written, tail);
    var ending := if n == 1 then "" else "s";
    var after := " " + written + ending + tail;
    assert t[2..] == NatToDigits(n) + after;
    assert after[1] == written[0];
    CountedMismatch(n, after, noun, wanted);
  }

  /** A count followed by a word whose first letter is not the noun's reads as nothing. */
  lemma CountedMismatch(n: nat, after: string, noun: string, wanted: string)
    requires |after| >= 2 && after[0] == ' ' && noun != [] && after[1] != noun[0]
    ensures ReadCounted(NatToDigits(n) + after, noun, wanted) == None
  {
    ReadNumberRendered(n, after);
    assert (" " + noun + "s" + wanted)[1] == noun[0];
    assert (" " + noun + wanted)[1] == noun[0];
  }

  function InsertionsPart(show: bool, n: nat): string {
    if show then ", " + Counted(n, "insertion", "(+)") else ""
  }

  function DeletionsPart(show: bool, n: nat): string {
    if show then ", " + Counted(n, "deletion", "(-)") else ""
  }

  lemma ClauseRendered(n: nat, noun: string, tail: string, rest: string)
    requires tail != [] && tail[0] != 's'
    ensures ReadClause(", " + Counted(n, noun, tail) + rest, noun, tail) == Some((n, rest))
  {
    var t := ", " + Counted(n, noun, tail) + rest;
    assert ", " <= t;
    assert t[2..] == Counted(n, noun, tail) + rest;
    ReadCountedRendered(n, noun, tail, rest);
  }

  lemma DeletionsClauseRendered(show: bool, n: nat)
    ensures ReadClause(DeletionsPart(show, n), "deletion", "(-)") == (if show then Some((n, "")) else None)
  {
    if show {
      assert DeletionsPart(show, n) == ", " + Counted(n, "deletion", "(-)") + "";
      ClauseRendered(n, "deletion", "(-)", "");
    }
  }

  lemma InsertionsClauseRendered(showIns: bool, i: nat, showDel: bool, d: nat)
    ensures ReadClause(InsertionsPart(showIns, i) + DeletionsPart(showDel, d), "insertion", "(+)") ==
            (if showIns then Some((i, DeletionsPart(showDel, d))) else None)
  {
    var rest := DeletionsPart(showDel, d);
    if showIns {
      assert InsertionsPart(showIns, i) + rest == ", " + Counted(i, "insertion", "(+)") + rest;
      ClauseRendered(i, "insertion", "(+)", rest);
    } else {
      assert InsertionsPart(showIns, i) + rest == rest;
      if showDel {
        ReadClauseOtherNoun(d, "deletion", "(-)", "insertion", "(+)");
      }
    }
  }

  lemma SummaryAtRendered(stats: DiffStats, showInsertions: bool, showDeletions: bool)
    ensures SummaryAt(SummaryLine(stats, showInsertions, showDeletions)) ==
            Some(DiffStats(stats.filesChanged,
                           if showInsertions then stats.insertions else 0,
                           if showDeletions then stats.deletions else 0))
  {
    var delPart := DeletionsPart(showDeletions, stats.deletions);
    var rest := InsertionsPart(showInsertions, stats.insertions) + delPart;
    var line := SummaryLine(stats, showInsertions, showDeletions);
    assert line == Counted(stats.filesChanged, "file", " changed") + rest;
    ReadCountedRendered(stats.filesChanged, "file", " changed", rest);
    InsertionsClauseRendered(showInsertions, stats.insertions, showDeletions, stats.deletions);
    var ins := ReadClause(rest, "insertion", "(+)");
    var afterIns := if ins.Some? then ins.value.1 else rest;
    if showInsertions {
      assert afterIns == delPart;
    } else if showDeletions {
      assert afterIns == delPart;
    } else {
      assert afterIns == "" == delPart;
    }
    DeletionsClauseRendered(showDeletions, stats.deletions);
  }

  /** Text without digits in front of the summary line cannot start a match, so the search
      skips it. */
  lemma {:induction false} MatchLineSkipsPrefix(prefix: string, line: string)
    requires forall i :: 0 <= i < |prefix| ==> !IsDigit(prefix[i])
    ensures MatchLine(prefix + line) == MatchLine(line)
    decreases |prefix|
  {
    if prefix == [] {
      assert prefix + line == line;
    } else {
      var t := prefix + line;
      assert LeadingDigits(t) == 0;
      assert SummaryAt(t) == None;
      assert t[1..] == prefix[1..] + line;
      assert MatchLine(t) == MatchLine(t[1..]);
      MatchLineSkipsPrefix(prefix[1..], line);
    }
  }

  /** Round trip for one line: rendering counts in git's summary format, behind any digit-free
      prefix, and recognising the line gives back the counts; an omitted clause reads as 0. */
  lemma SummaryLineRoundTrip(prefix: string, stats: DiffStats, showInsertions: bool, showDeletions: bool)
    requires forall i :: 0 <= i < |prefix| ==> !IsDigit(prefix[i])
    ensures MatchLine(prefix + SummaryLine(stats, showInsertions, showDeletions)) ==
            Some(DiffStats(stats.filesChanged,
                           if showInsertions then stats.insertions else 0,
                           if showDeletions then stats.deletions else 0))
  {
    MatchLineSkipsPrefix(prefix, SummaryLine(stats, showInsertions, showDeletions));
    SummaryAtRendered(stats, showInsertions, showDeletions);
  }

  /** Round trip for a whole `git diff --stat` output: whatever per-file lines come first, a final
      full summary line determines the statistics. */
  lemma DiffOutputRoundTrip(fileLines: seq<string>, stats: DiffStats)
    ensures LastSummary(fileLines + [" " + SummaryLine(stats, true, true)]) == Some(stats)
  {
    SummaryLineRoundTrip(" ", stats, true, true);
    var ls := fileLines + [" " + SummaryLine(stats, true, true)];
    assert ls[|ls| - 1] == " " + SummaryLine(stats, true, true);
  }
}

=== FILE: manager.dfy ===
/** The session registry: admission control and the commands routed to sessions. Every command
    takes the outcomes of the git runs, the process spawn and the database writes it depends on
    as parameters, and returns the new registry together with its result and published events. */
module Manager {
  import opened Results
  import opened Seqs
  import opened Text
  import opened Paths
  import opened Types
  import opened Sessions
  import opened GitWorktree
  import opened Process
  import opened AutoYes

  datatype SessionManager = SessionManager(sessions: map<string, Session>, maxConcurrentSessions: nat)

  function NewSessionManager(maxConcurrentSessions: nat): (m: SessionManager)
    ensures m.sessions == map[] && m.maxConcurrentSessions == maxConcurrentSessions
  {
    SessionManager(map[], maxConcurrentSessions)
  }

  /** Every session is filed under its own id. */
  ghost predicate FiledUnderOwnIds(m: SessionManager) {
    forall id | id in m.sessions :: m.sessions[id].id == id
  }

  /** What every registry reached by one command at a time satisfies: no more sessions than the
      limit, and each session filed under its own id. */
  ghost predicate Valid(m: SessionManager) {
    && |m.sessions| <= m.maxConcurrentSessions
    && FiledUnderOwnIds(m)
  }

  datatype ManagerError =
    | SessionLimitReached(max: nat)
    | SessionNotFound
    | WorktreeCreateFailed
    | WorktreeRemoveFailed(gitError: GitError)
    | CommitFailed(gitError: GitError)
    | DiffFailed(gitError: GitError)
    | DatabaseFailed
    | SpawnFailed
    | NotPaused
    | ProcessNotRunning
    | InputFailed(processError: ProcessError)

  /** A command's effect: the registry afterwards, the command's result, the events published. */
  datatype Step<T> = Step(manager: SessionManager, result: Result<T, ManagerError>, events: seq<SessionEvent>)

  /** The outcomes of the slow steps of `create_session`, in the order they run. */
  datatype CreateOutcomes = CreateOutcomes(worktreeCreated: bool, recordStored: bool, spawned: bool)

  /** `create_session`: refuse when the registry is full (paused sessions count), otherwise create
      the worktree, store the record, spawn the agent, and register the session as Running.
      The random UUID and the clock reading are parameters. A failure at any step leaves the
      registry as it was. */
  function CreateSession(m: SessionManager, projectId: string, projectPath: Path, config: SessionConfig,
                         freshId: string, now: nat, outcomes: CreateOutcomes): (st: Step<string>)
    requires |freshId| >= 8
    ensures |m.sessions| >= m.maxConcurrentSessions ==>
              st == Step(m, Err(SessionLimitReached(m.maxConcurrentSessions)), [])
    ensures st.result.Err? ==> st.manager == m && st.events == []
    ensures st.result.Ok? <==> (|m.sessions| < m.maxConcurrentSessions && outcomes.worktreeCreated
                                && outcomes.recordStored && outcomes.spawned)
    ensures st.result.Ok? ==>
              && st.result.value == freshId
              && st.events == [SessionCreated(freshId)]
              && freshId in st.manager.sessions
              && st.manager.sessions == m.sessions[freshId := st.manager.sessions[freshId]]
              && st.manager.maxConcurrentSessions == m.maxConcurrentSessions
    ensures st.result.Ok? ==>
              var s := st.manager.sessions[freshId];
              var w := NewWorktree(projectPath, freshId, config.branchPrefix);
              && s.id == freshId && s.projectId == projectId && s.projectPath == projectPath
              && s.status == Running && s.process == Some(Spawned)
              && s.outputBuffer == [] && s.errorMessage == None && s.config == config
              && s.branchName == w.branchName && s.worktreePath == w.worktreePath
              && s.createdAt == now
    ensures Valid(m) ==> Valid(st.manager)
  {
    if |m.sessions| >= m.maxConcurrentSessions then
      Step(m, Err(SessionLimitReached(m.maxConcurrentSessions)), [])
    else
      var initial := NewSession(projectId, projectPath, EmptyPath, "", config, freshId, now);
      var worktree := NewWorktree(projectPath, freshId, config.branchPrefix);
      if !outcomes.worktreeCreated then Step(m, Err(WorktreeCreateFailed), [])
      else
        var placed := initial.(worktreePath := worktree.worktreePath, branchName := worktree.branchName);
        if !outcomes.recordStored then Step(m, Err(DatabaseFailed), [])
        else if !outcomes.spawned then Step(m, Err(SpawnFailed), [])
        else
          var running := SetStatus(placed.(process := Some(Spawned)), Running, now);
          var sessions' := m.sessions[freshId := running];
          assert sessions'.Keys == m.sessions.Keys + {freshId};
          Step(m.(sessions := sessions'), Ok(freshId), [SessionCreated(freshId)])
  }

  /** `terminate_session`: the entry is removed from the registry first; removing the worktree
      and updating the record come after, so their failure is reported with the entry already
      gone. The removed session's own process is killed (see `Sessions.Terminate`). */
  function TerminateSession(m: SessionManager, id: string, removeRun: CommandOutput,
                            recordUpdated: bool): (st: Step<()>)
    ensures id !in m.sessions ==> st == Step(m, Err(SessionNotFound), [])
    ensures id in m.sessions ==> st.manager == m.(sessions := m.sessions - {id})
    ensures st.result.Ok? <==> (id in m.sessions && RemoveOutcome(removeRun).Ok? && recordUpdated)
    ensures st.events == (if st.result.Ok? then [SessionTerminated(id)] else [])
    ensures Valid(m) ==> Valid(st.manager)
  {
    if id !in m.sessions then Step(m, Err(SessionNotFound), [])
    else
      var m' := m.(sessions := m.sessions - {id});
      assert m'.sessions.Keys == m.sessions.Keys - {id};
      match RemoveOutcome(removeRun)
      case Err(e) => Step(m', Err(WorktreeRemoveFailed(e)), [])
      case Ok(_) =>
        if recordUpdated then Step(m', Ok(()), [SessionTerminated(id)])
        else Step(m', Err(DatabaseFailed), [])
  }

  /** `pause_session`: commit pending work ("WIP: Pausing session"); if that fails nothing
      changes. Otherwise kill the process and mark the session Paused, whatever its status was;
      the record update comes last and its failure leaves the pause in place. */
  function PauseSession(m: SessionManager, id: string, addRun: CommandOutput, commitRun: CommandOutput,
                        recordUpdated: bool, now: nat): (st: Step<()>)
    ensures id !in m.sessions ==> st == Step(m, Err(SessionNotFound), [])
    ensures id in m.sessions && CommitOutcome(addRun, commitRun).Err? ==>
              st.manager == m && st.result.Err?
    ensures id in m.sessions && CommitOutcome(addRun, commitRun).Ok? ==>
              st.manager == m.(sessions := m.sessions[id := m.sessions[id].(process := None, status := Paused,
                                                                           updatedAt := now)])
    ensures st.result.Ok? <==> (id in m.sessions && CommitOutcome(addRun, commitRun).Ok? && recordUpdated)
    ensures st.events == []
    ensures Valid(m) ==> Valid(st.manager)
  {
    if id !in m.sessions then Step(m, Err(SessionNotFound), [])
    else match CommitOutcome(addRun, commitRun)
      case Err(e) => Step(m, Err(CommitFailed(e)), [])
      case Ok(_) =>
        var paused := SetStatus(m.sessions[id].(process := None), Paused, now);
        var m' := m.(sessions := m.sessions[id := paused]);
        assert m'.sessions.Keys == m.sessions.Keys;
        Step(m', if recordUpdated then Ok(()) else Err(DatabaseFailed), [])
  }

  /** `resume_session`: only a Paused session resumes; a new agent is spawned in the same
      worktree and the session runs again. */
  function ResumeSession(m: SessionManager, id: string, spawned: bool, recordUpdated: bool, now: nat)
    : (st: Step<()>)
    ensures id !in m.sessions ==> st == Step(m, Err(SessionNotFound), [])
    ensures id in m.sessions && m.sessions[id].status != Paused ==> st == Step(m, Err(NotPaused), [])
    ensures id in m.sessions && m.sessions[id].status == Paused && !spawned ==> st == Step(m, Err(SpawnFailed), [])
    ensures id in m.sessions && m.sessions[id].status == Paused && spawned ==>
              st.manager == m.(sessions := m.sessions[id := m.sessions[id].(process := Some(Spawned),
                                                                           status := Running, updatedAt := now)])
    ensures st.result.Ok? <==> (id in m.sessions && m.sessions[id].status == Paused && spawned && recordUpdated)
    ensures st.events == []
    ensures Valid(m) ==> Valid(st.manager)
  {
    if id !in m.sessions then Step(m, Err(SessionNotFound), [])
    else if m.sessions[id].status != Paused then Step(m, Err(NotPaused), [])
    else if !spawned then Step(m, Err(SpawnFailed), [])
    else
      var resumed := SetStatus(m.sessions[id].(process := Some(Spawned)), Running, now);
      var m' := m.(sessions := m.sessions[id := resumed]);
      assert m'.sessions.Keys == m.sessions.Keys;
      Step(m', if recordUpdated then Ok(()) else Err(DatabaseFailed), [])
  }

  /** `send_input`: the session must exist and have a process attached; the process then
      receives the input and one newline. */
  function SendInput(m: SessionManager, id: string, input: string, writeSucceeds: bool): (st: Step<()>)
    ensures id !in m.sessions ==> st == Step(m, Err(SessionNotFound), [])
    ensures id in m.sessions && m.sessions[id].process.None? ==> st == Step(m, Err(ProcessNotRunning), [])
    ensures id in m.sessions && m.sessions[id].process.Some? ==>
              var stdin := m.sessions[id].process.value.stdin;
              && (stdin.None? ==> st == Step(m, Ok(()), []))
              && (stdin.Some? && writeSucceeds ==>
                    st == Step(m.(sessions := m.sessions[id := m.sessions[id].(
                                 process := Some(Proc(Some(stdin.value + input + "\n"))))]), Ok(()), []))
              && (stdin.Some? && !writeSucceeds ==> st == Step(m, Err(InputFailed(WriteFailed)), []))
  {
    if id !in m.sessions then Step(m, Err(SessionNotFound), [])
    else match m.sessions[id].process
      case None => Step(m, Err(ProcessNotRunning), [])
      case Some(p) =>
        var (p', r) := Process.SendInput(p, input, writeSucceeds);
        match r
        case Err(e) => Step(m, Err(InputFailed(e)), [])
        case Ok(_) =>
          if p' == p then Step(m, Ok(()), [])
          else Step(m.(sessions := m.sessions[id := m.sessions[id].(process := Some(p'))]), Ok(()), [])
  }

  /** `get_session_output`: the last `lines` buffered lines, oldest first. */
  function GetSessionOutput(m: SessionManager, id: string, lines: nat): (r: Result<seq<string>, ManagerError>)
    ensures id !in m.sessions ==> r == Err(SessionNotFound)
    ensures id in m.sessions ==> r.Ok? && r.value == LastN(m.sessions[id].outputBuffer, lines)
  {
    if id !in m.sessions then Err(SessionNotFound) else Ok(Preview(m.sessions[id].outputBuffer, lines))
  }

  /** Lines returned when the caller does not say how many. */
  const DefaultOutputLines: nat := 50

  function GetMultiSessionOutput(m: SessionManager, id: string, lines: Option<nat>)
    : (r: Result<seq<string>, ManagerError>)
    ensures id !in m.sessions ==> r == Err(SessionNotFound)
    ensures id in m.sessions && lines.Some? ==> r == Ok(LastN(m.sessions[id].outputBuffer, lines.value))
    ensures id in m.sessions && lines.None? ==> r == Ok(LastN(m.sessions[id].outputBuffer, 50))
  {
    GetSessionOutput(m, id, lines.GetOr(DefaultOutputLines))
  }

  /** What `get_session_diff` yields for a session, given the run of `git diff --stat` in its
      worktree. */
  function SessionDiff(m: SessionManager, id: string, diffRun: CommandOutput): Result<DiffStats, ManagerError> {
    if id !in m.sessions then Err(SessionNotFound)
    else match DiffStatsOutcome(diffRun)
      case Ok(stats) => Ok(stats)
      case Err(e) => Err(DiffFailed(e))
  }

  method GetSessionDiff(m: SessionManager, id: string, diffRun: CommandOutput)
    returns (r: Result<DiffStats, ManagerError>)
    ensures id !in m.sessions ==> r == Err(SessionNotFound)
    ensures id in m.sessions && diffRun.Exited? && !diffRun.success ==> r == Ok(NoChanges)
    ensures r == SessionDiff(m, id, diffRun)
  {
    if id !in m.sessions {
      return Err(SessionNotFound);
    }
    var stats := GetDiffStats(diffRun);
    match stats
    case Ok(d) => r := Ok(d);
    case Err(e) => r := Err(DiffFailed(e));
  }

  /** The summary of a registered session; its diff is looked up by the session's id, and a
      failed lookup shows as no diff. */
  function Summarize(m: SessionManager, diffOf: string -> CommandOutput, s: Session): SessionInfo {
    ToInfo(s, SessionDiff(m, s.id, diffOf(s.id)).ToOption())
  }

  function InfoOf(m: SessionManager, key: string, diffOf: string -> CommandOutput): SessionInfo
    requires key in m.sessions
  {
    Summarize(m, diffOf, m.sessions[key])
  }

  predicate NewestFirst(infos: seq<SessionInfo>) {
    forall i, j :: 0 <= i < j < |infos| ==> infos[i].createdAt >= infos[j].createdAt
  }

  lemma PrependNewest(x: SessionInfo, infos: seq<SessionInfo>)
    requires NewestFirst(infos)
    requires infos != [] ==> x.createdAt >= infos[0].createdAt
    ensures NewestFirst([x] + infos)
  {
    var r := [x] + infos;
    forall i, j | 0 <= i < j < |r|
      ensures r[i].createdAt >= r[j].createdAt
    {
      if i == 0 && j > 1 {
        assert r[j] == infos[j - 1];
      }
    }
  }

  /** One step of a stable sort, newest first: `info` goes after every entry at least as new. */
  function InsertNewestFirst(info: SessionInfo, infos: seq<SessionInfo>): (r: seq<SessionInfo>)
    requires NewestFirst(infos)
    ensures NewestFirst(r)
    ensures multiset(r) == multiset(infos) + multiset{info}
    ensures |r| == |infos| + 1
    ensures r[0] == info || (|infos| > 0 && r[0] == infos[0])
    decreases |infos|
  {
    if infos == [] then [info]
    else if infos[0].createdAt < info.createdAt then
      PrependNewest(info, infos);
      [info] + infos
    else
      var rest := InsertNewestFirst(info, infos[1..]);
      assert infos == [infos[0]] + infos[1..];
      PrependNewest(infos[0], rest);
      [infos[0]] + rest
  }

  /** Inserting a summary that is not yet listed keeps the list free of repetitions. */
  lemma {:induction false} InsertKeepsDistinct(info: SessionInfo, infos: seq<SessionInfo>)
    requires NewestFirst(infos) && Distinct(infos) && info !in infos
    ensures Distinct(InsertNewestFirst(info, infos))
    decreases |infos|
  {
    if infos == [] {
    } else if infos[0].createdAt < info.createdAt {
      PrependDistinct(info, infos);
    } else {
      var tail := infos[1..];
      assert infos == [infos[0]] + tail;
      DistinctTail(infos);
      InsertKeepsDistinct(info, tail);
      var rest := InsertNewestFirst(info, tail);
      assert InsertNewestFirst(info, infos) == [infos[0]] + rest;
      assert infos[0] != info;
      assert infos[0] !in rest by {
        assert multiset(rest) == multiset(tail) + multiset{info};
        assert infos[0] !in multiset(tail);
        assert infos[0] !in multiset(rest);
      }
      PrependDistinct(infos[0], rest);
    }
  }

  /** Different entries have different summaries. */
  ghost predicate SummariesDiffer<K>(entries: map<K, Session>, summarize: Session -> SessionInfo) {
    forall k1, k2 | k1 in entries && k2 in entries && k1 != k2 :: summarize(entries[k1]) != summarize(entries[k2])
  }

  /** `infos` holds one summary per entry whose key is in `keys`, newest first. */
  ghost predicate ListsKeys<K>(infos: seq<SessionInfo>, keys: set<K>, entries: map<K, Session>,
                               summarize: Session -> SessionInfo)
    requires keys <= entries.Keys
  {
    && NewestFirst(infos)
    && |infos| == |keys|
    && (forall i :: 0 <= i < |infos| ==> exists key :: key in keys && infos[i] == summarize(entries[key]))
    && (forall key :: key in keys ==> summarize(entries[key]) in infos)
  }

  /** Sorting so far has summarized exactly the entries no longer `pending`. */
  ghost predicate SortProgress<K>(infos: seq<SessionInfo>, pending: set<K>, entries: map<K, Session>,
                                  summarize: Session -> SessionInfo)
  {
    pending <= entries.Keys && ListsKeys(infos, entries.Keys - pending, entries, summarize)
  }

  lemma SortStep<K>(infos: seq<SessionInfo>, pending: set<K>, key: K, entries: map<K, Session>,
                    summarize: Session -> SessionInfo)
    requires key in pending && SortProgress(infos, pending, entries, summarize)
    ensures SortProgress(InsertNewestFirst(summarize(entries[key]), infos), pending - {key}, entries, summarize)
  {
    var keys := entries.Keys - pending;
    var info := summarize(entries[key]);
    var infos' := InsertNewestFirst(info, infos);
    assert entries.Keys - (pending - {key}) == keys + {key};
    assert forall y :: y in infos' <==> y == info || y in infos by {
      assert forall y :: y in infos' <==> y in multiset(infos');
      assert forall y :: y in infos <==> y in multiset(infos);
    }
    forall i | 0 <= i < |infos'|
      ensures exists k :: k in keys + {key} && infos'[i] == summarize(entries[k])
    {
      if infos'[i] != info {
        assert infos'[i] in infos;
        var j :| 0 <= j < |infos| && infos[j] == infos'[i];
      }
    }
  }

  lemma SortStepKeepsDistinct<K>(infos: seq<SessionInfo>, pending: set<K>, key: K, entries: map<K, Session>,
                                 summarize: Session -> SessionInfo)
    requires key in pending && SortProgress(infos, pending, entries, summarize)
    requires SummariesDiffer(entries, summarize) && Distinct(infos)
    ensures Distinct(InsertNewestFirst(summarize(entries[key]), infos))
  {
    var info := summarize(entries[key]);
    forall i | 0 <= i < |infos|
      ensures infos[i] != info
    {
      var k :| k in entries.Keys - pending && infos[i] == summarize(entries[k]);
    }
    InsertKeepsDistinct(info, infos);
  }

  /** The summaries of the entries filed under `keys`, in that order. */
  function SummariesOf<K>(keys: seq<K>, entries: map<K, Session>, summarize: Session -> SessionInfo)
    : (r: seq<SessionInfo>)
    requires forall k :: k in keys ==> k in entries
    ensures |r| == |keys|
    ensures forall i :: 0 <= i < |keys| ==> r[i] == summarize(entries[keys[i]])
    decreases |keys|
  {
    if keys == [] then []
    else SummariesOf(keys[..|keys| - 1], entries, summarize) + [summarize(entries[keys[|keys| - 1]])]
  }

  /** `order` lists the keys `done` each exactly once. */
  ghost predicate Enumerates<K>(order: seq<K>, done: set<K>) {
    && Distinct(order)
    && (forall k | k in order :: k in done)
    && (forall k | k in done :: k in order)
  }

  /** `infos` is a permutation of the summaries of the entries, each entry visited once, in `order`. */
  ghost predicate Permutes<K>(infos: seq<SessionInfo>, order: seq<K>, entries: map<K, Session>,
                              summarize: Session -> SessionInfo)
  {
    && Enumerates(order, entries.Keys)
    && multiset(infos) == multiset(SummariesOf(order, entries, summarize))
  }

  /** The loop has visited, once each and in `order`, exactly the entries no longer `pending`, and
      `infos` is a permutation of their summaries. */
  ghost predicate VisitProgress<K>(infos: seq<SessionInfo>, order: seq<K>, pending: set<K>,
                                   entries: map<K, Session>, summarize: Session -> SessionInfo)
  {
    && pending <= entries.Keys
    && Enumerates(order, entries.Keys - pending)
    && multiset(infos) == multiset(SummariesOf(order, entries, summarize))
  }

  /** Visiting one more key extends the visit order and its summaries by that key alone. */
  lemma VisitStep<K>(order: seq<K>, infos: seq<SessionInfo>, pending: set<K>, key: K, entries: map<K, Session>,
                     summarize: Session -> SessionInfo)
    requires key in pending && NewestFirst(infos)
    requires VisitProgress(infos, order, pending, entries, summarize)
    ensures VisitProgress(InsertNewestFirst(summarize(entries[key]), infos), order + [key], pending - {key},
                          entries, summarize)
  {
    AppendDistinct(order, key);
    assert (order + [key])[..|order|] == order;
    assert entries.Keys - (pending - {key}) == (entries.Keys - pending) + {key};
  }

  lemma VisitDone<K>(infos: seq<SessionInfo>, order: seq<K>, entries: map<K, Session>,
                     summarize: Session -> SessionInfo)
    requires VisitProgress(infos, order, {}, entries, summarize)
    ensures Permutes(infos, order, entries, summarize)
  {
    assert entries.Keys - {} == entries.Keys;
  }

  /** Everything the sorting loop keeps. */
  ghost predicate LoopProgress<K>(infos: seq<SessionInfo>, order: seq<K>, pending: set<K>,
                                  entries: map<K, Session>, summarize: Session -> SessionInfo)
  {
    && SortProgress(infos, pending, entries, summarize)
    && VisitProgress(infos, order, pending, entries, summarize)
    && (SummariesDiffer(entries, summarize) ==> Distinct(infos))
  }

  lemma LoopStep<K>(infos: seq<SessionInfo>, order: seq<K>, pending: set<K>, key: K, entries: map<K, Session>,
                    summarize: Session -> SessionInfo)
    requires key in pending && LoopProgress(infos, order, pending, entries, summarize)
    ensures LoopProgress(InsertNewestFirst(summarize(entries[key]), infos), order + [key], pending - {key},
                         entries, summarize)
  {
    SortStep(infos, pending, key, entries, summarize);
    VisitStep(order, infos, pending, key, entries, summarize);
    if SummariesDiffer(entries, summarize) {
      SortStepKeepsDistinct(infos, pending, key, entries, summarize);
    }
  }

  lemma LoopDone<K>(infos: seq<SessionInfo>, order: seq<K>, entries: map<K, Session>,
                    summarize: Session -> SessionInfo)
    requires LoopProgress(infos, order, {}, entries, summarize)
    ensures ListsKeys(infos, entries.Keys, entries, summarize)
    ensures Permutes(infos, order, entries, summarize)
    ensures SummariesDiffer(entries, summarize) ==> Distinct(infos)
  {
    assert entries.Keys - {} == entries.Keys;
    VisitDone(infos, order, entries, summarize);
  }

  /** Summarizes every entry, taken in the map's unspecified order (returned as `order`), and
      sorts the summaries by creation time, newest first. The result is a permutation of the
      summaries of the visited entries. */
  method SortedSummaries<K>(entries: map<K, Session>, summarize: Session -> SessionInfo)
    returns (infos: seq<SessionInfo>, order: seq<K>)
    ensures ListsKeys(infos, entries.Keys, entries, summarize)
    ensures Permutes(infos, order, entries, summarize)
    ensures SummariesDiffer(entries, summarize) ==> Distinct(infos)
  {
    var pending := entries.Keys;
    infos, order := [], [];
    while pending != {}
      invariant LoopProgress(infos, order, pending, entries, summarize)
      decreases pending
    {
      var key :| key in pending;
      LoopStep(infos, order, pending, key, entries, summarize);
      infos := InsertNewestFirst(summarize(entries[key]), infos);
      order := order + [key];
      pending := pending - {key};
    }
    LoopDone(infos, order, entries, summarize);
  }

  /** A session's summary carries the id it is filed under. */
  lemma InfoOfOwnId(m: SessionManager, key: string, diffOf: string -> CommandOutput)
    requires FiledUnderOwnIds(m) && key in m.sessions
    ensures InfoOf(m, key, diffOf).id == key
  {
  }

  lemma OwnIdsMakeSummariesDiffer(m: SessionManager, diffOf: string -> CommandOutput,
                                  summarize: Session -> SessionInfo)
    requires forall s :: summarize(s) == Summarize(m, diffOf, s)
    requires FiledUnderOwnIds(m)
    ensures SummariesDiffer(m.sessions, summarize)
  {
    forall k1, k2 | k1 in m.sessions && k2 in m.sessions && k1 != k2
      ensures summarize(m.sessions[k1]) != summarize(m.sessions[k2])
    {
      InfoOfOwnId(m, k1, diffOf);
      InfoOfOwnId(m, k2, diffOf);
    }
  }

  /** Summaries of distinct sessions filed under their own ids have distinct ids. */
  lemma ListedIdsDistinct(m: SessionManager, diffOf: string -> CommandOutput, summarize: Session -> SessionInfo,
                          infos: seq<SessionInfo>)
    requires forall s :: summarize(s) == Summarize(m, diffOf, s)
    requires ListsKeys(infos, m.sessions.Keys, m.sessions, summarize)
    requires SummariesDiffer(m.sessions, summarize) ==> Distinct(infos)
    ensures FiledUnderOwnIds(m) ==> DistinctIds(infos)
  {
    if FiledUnderOwnIds(m) {
      OwnIdsMakeSummariesDiffer(m, diffOf, summarize);
      forall i, j | 0 <= i < j < |infos|
        ensures infos[i].id != infos[j].id
      {
        var k1 :| k1 in m.sessions.Keys && infos[i] == summarize(m.sessions[k1]);
        var k2 :| k2 in m.sessions.Keys && infos[j] == summarize(m.sessions[k2]);
        InfoOfOwnId(m, k1, diffOf);
        InfoOfOwnId(m, k2, diffOf);
      }
    }
  }

  /** Every listed summary is some registered session's summary. */
  ghost predicate ListedAreSummaries(m: SessionManager, diffOf: string -> CommandOutput, infos: seq<SessionInfo>) {
    forall i :: 0 <= i < |infos| ==> exists key :: key in m.sessions && infos[i] == InfoOf(m, key, diffOf)
  }

  /** Every registered session's summary is listed. */
  ghost predicate SummariesAreListed(m: SessionManager, diffOf: string -> CommandOutput, infos: seq<SessionInfo>) {
    forall key :: key in m.sessions ==> InfoOf(m, key, diffOf) in infos
  }

  /** `infos` is the registry's listing: one summary per registered session, newest first, and
      no session listed twice when every session is filed under its own id. */
  ghost predicate ListsRegistry(m: SessionManager, diffOf: string -> CommandOutput, infos: seq<SessionInfo>) {
    && |infos| == |m.sessions|
    && ListedAreSummaries(m, diffOf, infos)
    && SummariesAreListed(m, diffOf, infos)
    && NewestFirst(infos)
    && (FiledUnderOwnIds(m) ==> DistinctIds(infos))
  }

  lemma ListedAreRegistered(m: SessionManager, diffOf: string -> CommandOutput, summarize: Session -> SessionInfo,
                            infos: seq<SessionInfo>)
    requires forall s :: summarize(s) == Summarize(m, diffOf, s)
    requires ListsKeys(infos, m.sessions.Keys, m.sessions, summarize)
    ensures ListedAreSummaries(m, diffOf, infos)
  {
    forall i | 0 <= i < |infos|
      ensures exists key :: key in m.sessions && infos[i] == InfoOf(m, key, diffOf)
    {
      var key :| key in m.sessions.Keys && infos[i] == summarize(m.sessions[key]);
      assert infos[i] == InfoOf(m, key, diffOf);
    }
  }

  lemma RegisteredAreListed(m: SessionManager, diffOf: string -> CommandOutput, summarize: Session -> SessionInfo,
                            infos: seq<SessionInfo>)
    requires forall s :: summarize(s) == Summarize(m, diffOf, s)
    requires ListsKeys(infos, m.sessions.Keys, m.sessions, summarize)
    ensures SummariesAreListed(m, diffOf, infos)
  {
    forall key | key in m.sessions
      ensures InfoOf(m, key, diffOf) in infos
    {
      assert summarize(m.sessions[key]) in infos;
    }
  }

  lemma ListedCount(m: SessionManager, summarize: Session -> SessionInfo, infos: seq<SessionInfo>)
    requires ListsKeys(infos, m.sessions.Keys, m.sessions, summarize)
    ensures |infos| == |m.sessions|
  {
    assert |m.sessions| == |m.sessions.Keys|;
  }

  /** `list_active_sessions`: one summary per registry entry, newest first. */
  method ListActiveSessions(m: SessionManager, diffOf: string -> CommandOutput) returns (infos: seq<SessionInfo>)
    ensures ListsRegistry(m, diffOf, infos)
  {
    var summarize := s => Summarize(m, diffOf, s);
    assert forall s :: summarize(s) == Summarize(m, diffOf, s);
    var order;
    infos, order := SortedSummaries(m.sessions, summarize);
    ListedCount(m, summarize, infos);
    ListedAreRegistered(m, diffOf, summarize, infos);
    RegisteredAreListed(m, diffOf, summarize, infos);
    ListedIdsDistinct(m, diffOf, summarize, infos);
  }

  /** `update_session_config` as written: the modified configuration is a clone that is
      dropped, so only the database row changes and the registry stays exactly as it was. */
  function UpdateSessionConfig(m: SessionManager, id: string, config: SessionConfig, recordUpdated: bool)
    : (st: Step<()>)
    ensures st.manager == m && st.events == []
    ensures id !in m.sessions ==> st.result == Err(SessionNotFound)
    ensures st.result.Ok? <==> (id in m.sessions && recordUpdated)
  {
    if id !in m.sessions then Step(m, Err(SessionNotFound), [])
    else
      // The modified clone, never stored back: kept only to mirror manager.rs:238-241.
      var dropped := m.sessions[id].config.(autoYes := config.autoYes);
      Step(m, if recordUpdated then Ok(()) else Err(DatabaseFailed), [])
  }

  /** The update the code evidently intends: the session's auto-yes flag takes the requested
      value in memory, and nothing else changes. */
  function UpdateSessionConfigCorrected(m: SessionManager, id: string, config: SessionConfig,
                                        recordUpdated: bool): (st: Step<()>)
    ensures id !in m.sessions ==> st == Step(m, Err(SessionNotFound), [])
    ensures id in m.sessions ==>
              && id in st.manager.sessions
              && st.manager.sessions[id].config.autoYes == config.autoYes
              && st.manager.sessions[id] == m.sessions[id].(config := st.manager.sessions[id].config)
              && st.manager.sessions[id].config == m.sessions[id].config.(autoYes := config.autoYes)
              && st.manager.sessions == m.sessions[id := st.manager.sessions[id]]
              && st.manager.maxConcurrentSessions == m.maxConcurrentSessions
    ensures st.result.Ok? <==> (id in m.sessions && recordUpdated)
    ensures Valid(m) ==> Valid(st.manager)
  {
    if id !in m.sessions then Step(m, Err(SessionNotFound), [])
    else
      var s := m.sessions[id];
      var m' := m.(sessions := m.sessions[id := s.(config := s.config.(autoYes := config.autoYes))]);
      assert m'.sessions.Keys == m.sessions.Keys;
      Step(m', if recordUpdated then Ok(()) else Err(DatabaseFailed), [])
  }

  /** A stdout line read by a registered session's reader task. Events carry the session's own id. */
  function DeliverStdoutLine(m: SessionManager, id: string, line: string, now: nat)
    : (r: (SessionManager, seq<SessionEvent>))
    requires id in m.sessions
    ensures r.0.sessions.Keys == m.sessions.Keys
    ensures forall other | other in m.sessions && other != id :: r.0.sessions[other] == m.sessions[other]
    ensures r.0.maxConcurrentSessions == m.maxConcurrentSessions
    ensures r.0.sessions[id].outputBuffer
            == AppendLine(m.sessions[id].outputBuffer, m.sessions[id].config.maxOutputBuffer, line)
    ensures r.0.sessions[id].status == DetectStatus(line).GetOr(m.sessions[id].status)
    ensures r.0.sessions[id].process == m.sessions[id].process
    ensures var s := m.sessions[id];
            var s' := r.0.sessions[id];
            s' == s.(outputBuffer := s'.outputBuffer, status := s'.status, updatedAt := now)
    ensures r.1 == (if DetectStatus(line).Some? then [StatusChanged(m.sessions[id].id, DetectStatus(line).value)] else [])
                   + [OutputAppended(m.sessions[id].id, line)]
  {
    var (s', events) := OnStdoutLine(m.sessions[id], line, now);
    (m.(sessions := m.sessions[id := s']), events)
  }

  /** A stderr line read by a registered session's reader task. Events carry the session's own id. */
  function DeliverStderrLine(m: SessionManager, id: string, line: string, now: nat)
    : (r: (SessionManager, seq<SessionEvent>))
    requires id in m.sessions
    ensures r.0.sessions.Keys == m.sessions.Keys
    ensures forall other | other in m.sessions && other != id :: r.0.sessions[other] == m.sessions[other]
    ensures r.0.maxConcurrentSessions == m.maxConcurrentSessions
    ensures r.0.sessions[id].outputBuffer
            == AppendLine(m.sessions[id].outputBuffer, m.sessions[id].config.maxOutputBuffer, ErrorTag + line)
    ensures IsCriticalError(line) ==> r.0.sessions[id].status == Error
                                      && r.0.sessions[id].errorMessage == Some(line)
                                      && r.1 == [ErrorReported(m.sessions[id].id, line)]
    ensures !IsCriticalError(line) ==> r.0.sessions[id].status == m.sessions[id].status
                                       && r.0.sessions[id].errorMessage == m.sessions[id].errorMessage
                                       && r.1 == []
    ensures r.0.sessions[id].process == m.sessions[id].process
    ensures var s := m.sessions[id];
            var s' := r.0.sessions[id];
            s' == s.(outputBuffer := s'.outputBuffer, status := s'.status, errorMessage := s'.errorMessage,
                     updatedAt := now)
  {
    var (s', events) := OnStderrLine(m.sessions[id], line, now);
    (m.(sessions := m.sessions[id := s']), events)
  }

  predicate AutoAnswerable(s: Session) {
    s.config.autoYes && s.status == Ready
  }

  /** Given a listing with one summary per registered session, the daemon picks exactly the
      answers the sessions' own summaries call for: each answer targets a registered session that
      is Ready with auto-yes on and is the answer its summary calls for, every session whose
      summary calls for an answer gets it, and no session is answered twice. */
  lemma AnswersGoToAnswerable(m: SessionManager, a: AutoYesManager, infos: seq<SessionInfo>,
                              diffOf: string -> CommandOutput)
    requires FiledUnderOwnIds(m) && ListsRegistry(m, diffOf, infos)
    ensures forall r | r in CheckAllSessions(a, infos) ::
              && r.sessionId in m.sessions && AutoAnswerable(m.sessions[r.sessionId])
              && Answer(a, InfoOf(m, r.sessionId, diffOf)) == Some(r)
    ensures forall id | id in m.sessions && Answer(a, InfoOf(m, id, diffOf)).Some? ::
              Answer(a, InfoOf(m, id, diffOf)).value in CheckAllSessions(a, infos)
    ensures DistinctTargets(CheckAllSessions(a, infos))
  {
    var sent := CheckAllSessions(a, infos);
    forall r | r in sent
      ensures && r.sessionId in m.sessions && AutoAnswerable(m.sessions[r.sessionId])
              && Answer(a, InfoOf(m, r.sessionId, diffOf)) == Some(r)
    {
      var i :| 0 <= i < |infos| && Answer(a, infos[i]) == Some(r);
      var key :| key in m.sessions && infos[i] == InfoOf(m, key, diffOf);
      InfoOfOwnId(m, key, diffOf);
    }
    forall id | id in m.sessions && Answer(a, InfoOf(m, id, diffOf)).Some?
      ensures Answer(a, InfoOf(m, id, diffOf)).value in sent
    {
      var i :| 0 <= i < |infos| && infos[i] == InfoOf(m, id, diffOf);
    }
  }

  /** A session after being sent `input`: with a piped stdin and a successful write the input and
      one newline are appended; otherwise the session is unchanged. */
  function Answered(s: Session, input: string, writeSucceeds: bool): (s': Session)
    ensures s.process.Some? && s.process.value.stdin.Some? && writeSucceeds ==>
              s' == s.(process := Some(Proc(Some(s.process.value.stdin.value + input + "\n"))))
    ensures !(s.process.Some? && s.process.value.stdin.Some? && writeSucceeds) ==> s' == s
  {
    match s.process
    case None => s
    case Some(p) => s.(process := Some(Process.SendInput(p, input, writeSucceeds).0))
  }

  /** `send_input` on a registered session changes that session as `Answered` says and nothing
      else, whatever its result. */
  lemma SendInputAnswers(m: SessionManager, id: string, input: string, writeSucceeds: bool)
    requires id in m.sessions
    ensures SendInput(m, id, input, writeSucceeds).manager
            == m.(sessions := m.sessions[id := Answered(m.sessions[id], input, writeSucceeds)])
  {
    if SendInput(m, id, input, writeSucceeds).manager == m {
      assert m.sessions[id := m.sessions[id]] == m.sessions;
    }
  }

  /** The session `id` after the tick, as the daemon computes it. */
  function TickAnswer(m: SessionManager, a: AutoYesManager, diffOf: string -> CommandOutput,
                      writeSucceeds: string -> bool, id: string): Session
    requires id in m.sessions
  {
    match Answer(a, InfoOf(m, id, diffOf))
    case None => m.sessions[id]
    case Some(r) => Answered(m.sessions[id], r.response, writeSucceeds(id))
  }

  /** A registered session after one auto-yes tick. It is answered when it is Ready with auto-yes
      on and a prompt is detected in its summary's preview: with a piped stdin and a successful
      write, the detected pattern's response and one newline reach the agent. Every other
      session is left exactly as it was. */
  function AfterTick(m: SessionManager, a: AutoYesManager, diffOf: string -> CommandOutput,
                     writeSucceeds: string -> bool, id: string): (s': Session)
    requires id in m.sessions
    ensures var s := m.sessions[id];
            var k := DetectPrompt(a, InfoOf(m, id, diffOf).outputPreview);
            AutoAnswerable(s) && k.Some? && s.process.Some? && s.process.value.stdin.Some? && writeSucceeds(id) ==>
              s' == s.(process := Some(Proc(Some(s.process.value.stdin.value + a.patterns[k.value].response + "\n"))))
    ensures var s := m.sessions[id];
            var k := DetectPrompt(a, InfoOf(m, id, diffOf).outputPreview);
            !(AutoAnswerable(s) && k.Some? && s.process.Some? && s.process.value.stdin.Some? && writeSucceeds(id)) ==>
              s' == s
  {
    TickAnswer(m, a, diffOf, writeSucceeds, id)
  }

  /** The sessions named in `answered` have become what `after` says; all others are untouched. */
  ghost predicate TickProgress(m: SessionManager, m': SessionManager, after: string --> Session,
                               answered: set<string>) {
    && m'.sessions.Keys == m.sessions.Keys
    && m'.maxConcurrentSessions == m.maxConcurrentSessions
    && (forall id | id in m.sessions :: after.requires(id))
    && forall id | id in m.sessions :: m'.sessions[id] == (if id in answered then after(id) else m.sessions[id])
  }

  lemma TickStep(m: SessionManager, m': SessionManager, after: string --> Session, answered: set<string>,
                 id: string, input: string, writeSucceeds: bool)
    requires TickProgress(m, m', after, answered)
    requires id in m.sessions && id !in answered && after(id) == Answered(m.sessions[id], input, writeSucceeds)
    ensures TickProgress(m, SendInput(m', id, input, writeSucceeds).manager, after, answered + {id})
  {
    SendInputAnswers(m', id, input, writeSucceeds);
  }

  lemma TickDone(m: SessionManager, m': SessionManager, after: string --> Session, answered: set<string>)
    requires TickProgress(m, m', after, answered)
    requires forall id | id in m.sessions && id !in answered :: after(id) == m.sessions[id]
    ensures forall id | id in m.sessions :: m'.sessions[id] == after(id)
  {
  }

  /** The first `k` answers have been sent, and the sessions they target are exactly the ones in
      `answered` among all targets. */
  ghost predicate SentProgress(sent: seq<AutoResponse>, k: nat, answered: set<string>) {
    && k <= |sent|
    && (forall j :: 0 <= j < k ==> sent[j].sessionId in answered)
    && (forall j :: k <= j < |sent| ==> sent[j].sessionId !in answered)
  }

  lemma SentStep(sent: seq<AutoResponse>, k: nat, answered: set<string>)
    requires SentProgress(sent, k, answered) && k < |sent| && DistinctTargets(sent)
    ensures SentProgress(sent, k + 1, answered + {sent[k].sessionId})
  {
  }

  /** A session no answer was sent to is one whose summary called for none. */
  lemma UnansweredUnchanged(m: SessionManager, a: AutoYesManager, diffOf: string -> CommandOutput,
                            writeSucceeds: string -> bool, answered: set<string>, sent: seq<AutoResponse>)
    requires FiledUnderOwnIds(m)
    requires SentProgress(sent, |sent|, answered)
    requires forall id | id in m.sessions && Answer(a, InfoOf(m, id, diffOf)).Some? ::
               Answer(a, InfoOf(m, id, diffOf)).value in sent
    ensures forall id | id in m.sessions && id !in answered ::
              TickAnswer(m, a, diffOf, writeSucceeds, id) == m.sessions[id]
  {
    forall id | id in m.sessions && id !in answered
      ensures Answer(a, InfoOf(m, id, diffOf)).None?
    {
      InfoOfOwnId(m, id, diffOf);
    }
  }

  /** One tick of the auto-yes daemon: list the sessions, pick the prompts to answer, and send
      each answer; a failed send is only logged. */
  method AutoYesTick(m: SessionManager, a: AutoYesManager, diffOf: string -> CommandOutput,
                     writeSucceeds: string -> bool) returns (m': SessionManager)
    requires FiledUnderOwnIds(m)
    ensures m'.sessions.Keys == m.sessions.Keys
    ensures m'.maxConcurrentSessions == m.maxConcurrentSessions
    ensures forall id | id in m.sessions :: m'.sessions[id] == AfterTick(m, a, diffOf, writeSucceeds, id)
  {
    var infos := ListActiveSessions(m, diffOf);
    var sent := CheckAllSessions(a, infos);
    AnswersGoToAnswerable(m, a, infos, diffOf);
    ghost var after := id requires id in m.sessions => TickAnswer(m, a, diffOf, writeSucceeds, id);
    m' := m;
    ghost var answered: set<string> := {};
    var k := 0;
    while k < |sent|
      invariant 0 <= k <= |sent|
      invariant TickProgress(m, m', after, answered)
      invariant SentProgress(sent, k, answered)
    {
      var r := sent[k];
      assert r in sent;
      SentStep(sent, k, answered);
      assert after(r.sessionId) == Answered(m.sessions[r.sessionId], r.response, writeSucceeds(r.sessionId));
      TickStep(m, m', after, answered, r.sessionId, r.response, writeSucceeds(r.sessionId));
      m' := SendInput(m', r.sessionId, r.response, writeSucceeds(r.sessionId)).manager;
      answered := answered + {r.sessionId};
      k := k + 1;
    }
    UnansweredUnchanged(m, a, diffOf, writeSucceeds, answered, sent);
    TickDone(m, m', after, answered);
  }

  // -------------------------------------------------------------------------------------
  // Registry-level properties.
  // -------------------------------------------------------------------------------------

  /** A session created under a fresh id grows the registry by exactly one entry. */
  lemma FreshCreateAddsOne(m: SessionManager, projectId: string, projectPath: Path, config: SessionConfig,
                           freshId: string, now: nat, outcomes: CreateOutcomes)
    requires |freshId| >= 8 && freshId !in m.sessions
    requires CreateSession(m, projectId, projectPath, config, freshId, now, outcomes).result.Ok?
    ensures |CreateSession(m, projectId, projectPath, config, freshId, now, outcomes).manager.sessions|
            == |m.sessions| + 1
  {
    var m' := CreateSession(m, projectId, projectPath, config, freshId, now, outcomes).manager;
    assert m'.sessions.Keys == m.sessions.Keys + {freshId};
  }

  /** Paused sessions keep their slot: pausing a session of a full registry does not make room. */
  lemma PausedSessionsCountTowardLimit(m: SessionManager, id: string, addRun: CommandOutput,
                                       commitRun: CommandOutput, recordUpdated: bool, now: nat,
                                       projectId: string, projectPath: Path, config: SessionConfig,
                                       freshId: string, outcomes: CreateOutcomes)
    requires |m.sessions| >= m.maxConcurrentSessions && |freshId| >= 8
    ensures var paused := PauseSession(m, id, addRun, commitRun, recordUpdated, now).manager;
            CreateSession(paused, projectId, projectPath, config, freshId, now, outcomes).result
              == Err(SessionLimitReached(m.maxConcurrentSessions))
  {
    var paused := PauseSession(m, id, addRun, commitRun, recordUpdated, now).manager;
    assert paused.sessions.Keys == m.sessions.Keys;
  }

  /** After a pause took effect, input is refused until the session is resumed. */
  lemma InputRefusedWhilePaused(m: SessionManager, id: string, addRun: CommandOutput, commitRun: CommandOutput,
                                recordUpdated: bool, now: nat, input: string, writeSucceeds: bool)
    requires id in m.sessions && CommitOutcome(addRun, commitRun).Ok?
    ensures var paused := PauseSession(m, id, addRun, commitRun, recordUpdated, now).manager;
            SendInput(paused, id, input, writeSucceeds).result == Err(ProcessNotRunning)
  {
  }

  /** Pause then resume gives back a running session in the same worktree, on the same branch,
      with the same auto-yes setting, and a fresh process. */
  lemma PauseResumeKeepsBinding(m: SessionManager, id: string, addRun: CommandOutput, commitRun: CommandOutput,
                                now: nat, later: nat)
    requires id in m.sessions && CommitOutcome(addRun, commitRun).Ok?
    ensures var paused := PauseSession(m, id, addRun, commitRun, true, now).manager;
            var resumed := ResumeSession(paused, id, true, true, later);
            && resumed.result.Ok?
            && var s := resumed.manager.sessions[id];
            && s.worktreePath == m.sessions[id].worktreePath
            && s.branchName == m.sessions[id].branchName
            && s.config.autoYes == m.sessions[id].config.autoYes
            && s.status == Running && s.process == Some(Spawned)
  {
  }

  /** Pausing and resuming never change how the agent is launched: the resumed session starts
      with the same program, working directory, arguments and environment as before the pause. */
  lemma ResumeLaunchesAsBefore(m: SessionManager, id: string, addRun: CommandOutput, commitRun: CommandOutput,
                               pauseRecorded: bool, spawned: bool, resumeRecorded: bool, now: nat, later: nat)
    requires id in m.sessions
    ensures var paused := PauseSession(m, id, addRun, commitRun, pauseRecorded, now).manager;
            var resumed := ResumeSession(paused, id, spawned, resumeRecorded, later).manager;
            id in resumed.sessions && LaunchFor(resumed.sessions[id]) == LaunchFor(m.sessions[id])
  {
  }

  /** A created session's agent starts in the configured working directory when there is one,
      otherwise in the worktree derived from the session id. */
  lemma CreatedSessionLaunch(m: SessionManager, projectId: string, projectPath: Path, config: SessionConfig,
                             freshId: string, now: nat, outcomes: CreateOutcomes)
    requires |freshId| >= 8
    requires CreateSession(m, projectId, projectPath, config, freshId, now, outcomes).result.Ok?
    ensures var s := CreateSession(m, projectId, projectPath, config, freshId, now, outcomes).manager.sessions[freshId];
            var w := NewWorktree(projectPath, freshId, config.branchPrefix);
            && LaunchFor(s).workingDirectory == config.workingDirectory.GetOr(w.worktreePath)
            && LaunchFor(s).args == config.claudeArgs && LaunchFor(s).environment == config.environmentVars
  {
  }

  /** Once terminated, a session is gone for good: input to it reports that it does not exist,
      and no later listing shows it. */
  lemma TerminatedSessionIsGone(m: SessionManager, id: string, removeRun: CommandOutput, recordUpdated: bool,
                                input: string, writeSucceeds: bool, diffOf: string -> CommandOutput)
    requires Valid(m) && id in m.sessions
    ensures var gone := TerminateSession(m, id, removeRun, recordUpdated).manager;
            && SendInput(gone, id, input, writeSucceeds).result == Err(SessionNotFound)
            && forall key | key in gone.sessions :: InfoOf(gone, key, diffOf).id != id
  {
  }

  /** With the default configuration a new session runs on branch
      `claudia-session-<first 8 characters of its id>`, and its agent is started in its own
      worktree. */
  lemma DefaultSessionScenario(m: SessionManager, projectId: string, projectPath: Path, freshId: string,
                               now: nat)
    requires |freshId| >= 8 && |m.sessions| < m.maxConcurrentSessions
    ensures var st := CreateSession(m, projectId, projectPath, DefaultConfig(), freshId, now,
                                    CreateOutcomes(true, true, true));
            && st.result == Ok(freshId)
            && st.manager.sessions[freshId].branchName == "claudia-session-" + freshId[..8]
            && st.manager.sessions[freshId].status == Running
            && LaunchFor(st.manager.sessions[freshId]).workingDirectory
               == st.manager.sessions[freshId].worktreePath
  {
  }

  /** The update as written reports success yet the session keeps its old auto-yes flag, so the
      auto-yes daemon keeps ignoring (or answering) it. */
  lemma UpdatedAutoYesIsLost(m: SessionManager, id: string, config: SessionConfig)
    requires id in m.sessions && config.autoYes != m.sessions[id].config.autoYes
    ensures var st := UpdateSessionConfig(m, id, config, true);
            st.result.Ok? && st.manager.sessions[id].config.autoYes != config.autoYes
  {
  }

  /** With the corrected update, the next summary of the session carries the new flag. */
  lemma CorrectedUpdateReachesSummary(m: SessionManager, id: string, config: SessionConfig,
                                      diff: Option<DiffStats>)
    requires id in m.sessions
    ensures var st := UpdateSessionConfigCorrected(m, id, config, true);
            st.result.Ok? && ToInfo(st.manager.sessions[id], diff).autoYes == config.autoYes
  {
  }
}

=== FILE: paths.dfy ===
/** File-system paths as Rust's `Path` sees them: an optional root and a list of components. */
module Paths {
  import opened Results
  import opened Text

  datatype Path = Path(absolute: bool, parts: seq<string>)

  /** `PathBuf::new()`. */
  const EmptyPath := Path(false, [])

  /** `Path::parent`: `None` for a root or an empty path, otherwise the path without its last
      component (for a one-component relative path that is the empty path). */
  function Parent(p: Path): Option<Path> {
    if p.parts == [] then None else Some(Path(p.absolute, p.parts[..|p.parts| - 1]))
  }

  /** `Path::join` with a single relative component. */
  function Child(p: Path, name: string): Path {
    Path(p.absolute, p.parts + [name])
  }

  /** `Path::display().to_string()`. */
  function Display(p: Path): string {
    (if p.absolute then "/" else "") + Join(p.parts, "/")
  }
}

=== FILE: process.dfy ===
/** The process supervisor: how the child is launched, how each line it prints changes its
    session, and what `send_input` writes to it. */
module Process {
  import opened Results
  import opened Text
  import opened Paths
  import opened Types
  import opened Sessions

  /** The launch request for the agent: program, working directory, arguments, environment. */
  datatype Launch = Launch(program: string, workingDirectory: Path, args: seq<string>,
                           environment: seq<(string, string)>)

  /** `spawn_claude_session` before the spawn itself: the configured working directory wins over
      the session's worktree; arguments and environment come from the configuration. */
  function LaunchFor(s: Session): (l: Launch)
    ensures l.program == "claude"
    ensures s.config.workingDirectory.Some? ==> l.workingDirectory == s.config.workingDirectory.value
    ensures s.config.workingDirectory.None? ==> l.workingDirectory == s.worktreePath
    ensures l.args == s.config.claudeArgs && l.environment == s.config.environmentVars
  {
    Launch("claude", s.config.workingDirectory.GetOr(s.worktreePath), s.config.claudeArgs,
           s.config.environmentVars)
  }

  predicate ContainsAny(line: string, needles: seq<string>) {
    exists w | w in needles :: Contains(line, w)
  }

  /** Status markers, in priority order. */
  const ReadyMarkers: seq<string> := ["Ready", "Human:"]
  const LoadingMarkers: seq<string> := ["Working", "Thinking"]
  const RunningMarkers: seq<string> := ["Running", "Executing"]
  const CompletedMarkers: seq<string> := ["Complete", "Done"]

  /** `detect_status_from_output`: a case-sensitive substring classifier in which an earlier
      group of markers always wins over a later one. */
  function DetectStatus(line: string): (r: Option<SessionStatus>)
    ensures r == Some(Ready) <==> ContainsAny(line, ReadyMarkers)
    ensures r == Some(Loading) <==> !ContainsAny(line, ReadyMarkers) && ContainsAny(line, LoadingMarkers)
    ensures r == Some(Running) <==> !ContainsAny(line, ReadyMarkers) && !ContainsAny(line, LoadingMarkers)
                                    && ContainsAny(line, RunningMarkers)
    ensures r == Some(Completed) <==> !ContainsAny(line, ReadyMarkers) && !ContainsAny(line, LoadingMarkers)
                                      && !ContainsAny(line, RunningMarkers) && ContainsAny(line, CompletedMarkers)
    ensures r == None <==> !ContainsAny(line, ReadyMarkers) && !ContainsAny(line, LoadingMarkers)
                           && !ContainsAny(line, RunningMarkers) && !ContainsAny(line, CompletedMarkers)
  {
    if Contains(line, "Ready") || Contains(line, "Human:") then Some(Ready)
    else if Contains(line, "Working") || Contains(line, "Thinking") then Some(Loading)
    else if Contains(line, "Running") || Contains(line, "Executing") then Some(Running)
    else if Contains(line, "Complete") || Contains(line, "Done") then Some(Completed)
    else None
  }

  const CriticalMarkers: seq<string> := ["FATAL", "CRITICAL", "Failed to initialize", "Permission denied"]

  /** `is_critical_error`. */
  function IsCriticalError(line: string): (r: bool)
    ensures r <==> ContainsAny(line, CriticalMarkers)
  {
    Contains(line, "FATAL") || Contains(line, "CRITICAL") || Contains(line, "Failed to initialize")
    || Contains(line, "Permission denied")
  }

  /** The stdout reader's body for one line: append it verbatim, adopt the status it announces
      (publishing the change), then publish the line. */
  function OnStdoutLine(s: Session, line: string, now: nat): (r: (Session, seq<SessionEvent>))
    ensures r.0.outputBuffer == AppendLine(s.outputBuffer, s.config.maxOutputBuffer, line)
    ensures r.0.status == DetectStatus(line).GetOr(s.status)
    ensures r.0 == s.(outputBuffer := r.0.outputBuffer, status := r.0.status, updatedAt := now)
    ensures r.1 == (if DetectStatus(line).Some? then [StatusChanged(s.id, DetectStatus(line).value)] else [])
                   + [OutputAppended(s.id, line)]
  {
    var appended := AppendOutput(s, line, now);
    match DetectStatus(line)
    case Some(status) => (SetStatus(appended, status, now), [StatusChanged(s.id, status), OutputAppended(s.id, line)])
    case None => (appended, [OutputAppended(s.id, line)])
  }

  const ErrorTag := "[ERROR] "

  /** The stderr reader's body for one line: append it tagged; a critical line also records the
      raw line as the session's error (status Error) and publishes it. */
  function OnStderrLine(s: Session, line: string, now: nat): (r: (Session, seq<SessionEvent>))
    ensures r.0.outputBuffer == AppendLine(s.outputBuffer, s.config.maxOutputBuffer, ErrorTag + line)
    ensures IsCriticalError(line) ==> r.0.status == Error && r.0.errorMessage == Some(line)
                                      && r.1 == [ErrorReported(s.id, line)]
    ensures !IsCriticalError(line) ==> r.0.status == s.status && r.0.errorMessage == s.errorMessage
                                       && r.1 == []
    ensures r.0 == s.(outputBuffer := r.0.outputBuffer, status := r.0.status,
                      errorMessage := r.0.errorMessage, updatedAt := now)
  {
    var appended := AppendOutput(s, ErrorTag + line, now);
    if IsCriticalError(line) then (SetError(appended, line, now), [ErrorReported(s.id, line)])
    else (appended, [])
  }

  /** A critical marker anywhere in a stderr line, whatever surrounds it, makes the line critical. */
  lemma CriticalMarkerAnywhere(pre: string, marker: string, post: string)
    requires marker in CriticalMarkers
    ensures IsCriticalError(pre + marker + post)
  {
    InfixContained(pre, marker, post);
  }

  datatype ProcessError = WriteFailed

  /** `ProcessManager::send_input`: with a piped stdin, the input followed by one newline is
      written (a failed write is reported and, in this model, writes nothing); without a stdin
      it succeeds without writing. */
  function SendInput(p: Proc, input: string, writeSucceeds: bool): (r: (Proc, Result<(), ProcessError>))
    ensures p.stdin.None? ==> r == (p, Ok(()))
    ensures p.stdin.Some? && writeSucceeds ==> r == (Proc(Some(p.stdin.value + input + "\n")), Ok(()))
    ensures p.stdin.Some? && !writeSucceeds ==> r == (p, Err(WriteFailed))
  {
    match p.stdin
    case None => (p, Ok(()))
    case Some(written) =>
      if writeSucceeds then (Proc(Some(written + input + "\n")), Ok(())) else (p, Err(WriteFailed))
  }

  /** Several inputs sent one after the other, every write succeeding. */
  function SendAll(p: Proc, inputs: seq<string>): Proc
    decreases |inputs|
  {
    if inputs == [] then p else SendAll(SendInput(p, inputs[0], true).0, inputs[1..])
  }

  /** Each input followed by its own newline, in order. */
  function Framed(inputs: seq<string>): string
    decreases |inputs|
  {
    if inputs == [] then "" else inputs[0] + "\n" + Framed(inputs[1..])
  }

  /** The child's standard input receives the inputs in the order they were sent, each
      terminated by exactly one newline, and nothing else. */
  lemma {:induction false} SendAllAppendsFramed(p: Proc, inputs: seq<string>)
    requires p.stdin.Some?
    ensures SendAll(p, inputs).stdin == Some(p.stdin.value + Framed(inputs))
    decreases |inputs|
  {
    if inputs != [] {
      var next := SendInput(p, inputs[0], true).0;
      SendAllAppendsFramed(next, inputs[1..]);
      assert next.stdin.value + Framed(inputs[1..]) == p.stdin.value + Framed(inputs);
    } else {
      assert p.stdin.value + Framed(inputs) == p.stdin.value;
    }
  }

  // -------------------------------------------------------------------------------------
  // Consequences of the classifier's priority order.
  // -------------------------------------------------------------------------------------

  /** A line mentioning "Ready" or "Human:" reads as Ready whatever else it contains. */
  lemma ReadyMarkerWins(pre: string, marker: string, post: string)
    requires marker in ReadyMarkers
    ensures DetectStatus(pre + marker + post) == Some(Ready)
  {
    InfixContained(pre, marker, post);
  }

  /** Matching is case-sensitive: a lower-case "ready" is not a status marker. */
  lemma LowerCaseIsNotAMarker()
    ensures DetectStatus("ready") == None
  {
    forall w | w in ReadyMarkers + LoadingMarkers + RunningMarkers + CompletedMarkers
      ensures !Contains("ready", w)
    {
      FirstCharAbsent("ready", w);
    }
  }

  /** Error is not a final status: the stdout reader keeps classifying lines, so a later line
      announcing readiness takes the session out of Error. */
  lemma ErrorStatusIsNotFinal(s: Session, now: nat)
    requires s.status == Error
    ensures OnStdoutLine(s, "Ready", now).0.status == Ready
  {
    ReadyMarkerWins("", "Ready", "");
    assert "" + "Ready" + "" == "Ready";
  }

  /** A stdout line that announces nothing leaves the status alone. */
  lemma QuietLineKeepsStatus(s: Session, line: string, now: nat)
    requires DetectStatus(line) == None
    ensures OnStdoutLine(s, line, now).0.status == s.status
    ensures OnStdoutLine(s, line, now).1 == [OutputAppended(s.id, line)]
  {
  }
}

=== FILE: results.dfy ===
/** Failure-carrying values: the model's stand-in for Rust's `Option` and `anyhow::Result`. */
module Results {

  datatype Option<+T> = None | Some(value: T) {

    /** The carried value, or `default` when there is none (Rust's `unwrap_or`). */
    function GetOr(default: T): T {
      match this
      case Some(v) => v
      case None => default
    }
  }

  datatype Result<+T, +E> = Ok(value: T) | Err(error: E) {

    /** Drops the error, as Rust's `Result::ok` does. */
    function ToOption(): Option<T> {
      match this
      case Ok(v) => Some(v)
      case Err(_) => None
    }
  }
}

=== FILE: seqs.dfy ===
/** Sequence helpers shared by the output buffer, the prompt window and the diff-stat scan. */
module Seqs {

  function Min(a: nat, b: nat): nat {
    if a <= b then a else b
  }

  /** The last `n` elements of `s` in their original order (all of `s` when it is shorter). */
  function LastN<T>(s: seq<T>, n: nat): seq<T> {
    s[|s| - Min(n, |s|)..]
  }

  function Reverse<T>(s: seq<T>): (r: seq<T>)
    ensures |r| == |s|
    ensures forall i :: 0 <= i < |s| ==> r[i] == s[|s| - 1 - i]
  {
    if s == [] then [] else Reverse(s[1..]) + [s[0]]
  }

  /** Taking the last `n` of a longer sequence ignores everything before its last `n` elements. */
  lemma LastNOfLonger<T>(pre: seq<T>, s: seq<T>, n: nat)
    requires n <= |s|
    ensures LastN(pre + s, n) == LastN(s, n)
  {
    assert (pre + s)[|pre + s| - n..] == s[|s| - n..];
  }

  lemma ConcatAssoc<T>(a: seq<T>, b: seq<T>, c: seq<T>)
    ensures a + (b + c) == (a + b) + c
  {
  }

  /** No element occurs twice. */
  predicate Distinct<T(==)>(s: seq<T>) {
    forall i, j :: 0 <= i < j < |s| ==> s[i] != s[j]
  }

  lemma PrependDistinct<T>(x: T, s: seq<T>)
    requires Distinct(s) && x !in s
    ensures Distinct([x] + s)
  {
    var r := [x] + s;
    forall i, j | 0 <= i < j < |r|
      ensures r[i] != r[j]
    {
      if i == 0 {
        assert r[j] == s[j - 1];
      } else {
        assert r[i] == s[i - 1] && r[j] == s[j - 1];
      }
    }
  }

  lemma AppendDistinct<T>(s: seq<T>, x: T)
    requires Distinct(s) && x !in s
    ensures Distinct(s + [x])
  {
    var r := s + [x];
    forall i, j | 0 <= i < j < |r|
      ensures r[i] != r[j]
    {
      if j == |s| {
        assert r[i] == s[i];
      } else {
        assert r[i] == s[i] && r[j] == s[j];
      }
    }
  }

  lemma DistinctTail<T>(s: seq<T>)
    requires s != [] && Distinct(s)
    ensures Distinct(s[1..]) && s[0] !in s[1..]
  {
    assert forall j :: 0 <= j < |s| - 1 ==> s[1..][j] == s[j + 1];
  }
}

=== FILE: session.dfy ===
/** One supervised run: its record, the bounded output ring and the small status mutators. */
module Sessions {
  import opened Results
  import opened Seqs
  import opened Text
  import opened Paths
  import opened Types

  datatype SessionConfig = SessionConfig(
    autoYes: bool,
    maxOutputBuffer: nat,
    environmentVars: seq<(string, string)>,
    workingDirectory: Option<Path>,
    branchPrefix: string,
    claudeArgs: seq<string>)

  /** A running child process, reduced to what the orchestrator can observe of it: whether its
      standard input is piped and, if so, every byte written to it so far. */
  datatype Proc = Proc(stdin: Option<string>)

  /** A freshly spawned child with a piped, still-empty standard input. */
  const Spawned := Proc(Some(""))

  datatype Session = Session(
    id: string,
    projectId: string,
    projectPath: Path,
    worktreePath: Path,
    branchName: string,
    process: Option<Proc>,
    status: SessionStatus,
    outputBuffer: seq<string>,
    createdAt: nat,
    updatedAt: nat,
    config: SessionConfig,
    errorMessage: Option<string>)

  /** Number of buffered lines shown in a session summary. */
  const PreviewLines: nat := 5

  function DefaultConfig(): (c: SessionConfig)
    ensures !c.autoYes
    ensures c.maxOutputBuffer == 10000
    ensures c.branchPrefix == "claudia-session"
    ensures c.environmentVars == [] && c.claudeArgs == [] && c.workingDirectory == None
  {
    SessionConfig(false, 10000, [], None, "claudia-session", [])
  }

  /** `Session::new`; the random UUID and the clock reading are parameters. */
  function NewSession(projectId: string, projectPath: Path, worktreePath: Path, branchName: string,
                      config: SessionConfig, id: string, now: nat): (s: Session)
    ensures s.id == id && s.projectId == projectId && s.projectPath == projectPath
    ensures s.worktreePath == worktreePath && s.branchName == branchName && s.config == config
    ensures s.status == Initializing && s.process == None
    ensures s.outputBuffer == [] && s.errorMessage == None
    ensures s.createdAt == now && s.updatedAt == now
  {
    Session(id, projectId, projectPath, worktreePath, branchName, None, Initializing, [], now, now,
            config, None)
  }

  /** The drop-oldest ring step: when the buffer already holds `max` lines or more, pop the front
      (a no-op on an empty buffer), then push `line` at the back. */
  function AppendLine(buffer: seq<string>, max: nat, line: string): (r: seq<string>)
    ensures |r| > 0 && r[|r| - 1] == line
    ensures 1 <= max && |buffer| <= max ==> |r| <= max
    ensures |buffer| < max ==> r == buffer + [line]
    ensures |buffer| >= max && |buffer| > 0 ==> r == buffer[1..] + [line]
    ensures max == 0 && |buffer| <= 1 ==> r == [line]
  {
    var kept := if |buffer| >= max && |buffer| > 0 then buffer[1..] else buffer;
    kept + [line]
  }

  /** With a capacity of at least one and a buffer within it, one append keeps exactly the last
      `max` lines of the history. */
  lemma AppendLineIsWindow(buffer: seq<string>, max: nat, line: string)
    requires 1 <= max && |buffer| <= max
    ensures AppendLine(buffer, max, line) == LastN(buffer + [line], max)
  {
  }

  /** Appending lines one by one, oldest first. */
  function AppendAll(buffer: seq<string>, max: nat, lines: seq<string>): seq<string>
    decreases |lines|
  {
    if lines == [] then buffer else AppendAll(AppendLine(buffer, max, lines[0]), max, lines[1..])
  }

  /** The bounded-buffer invariant over any number of appends: the ring always holds exactly the
      last `max` lines of everything that was ever appended, hence never more than `max`. */
  lemma {:induction false} AppendAllIsWindow(buffer: seq<string>, max: nat, lines: seq<string>)
    requires 1 <= max && |buffer| <= max
    ensures AppendAll(buffer, max, lines) == LastN(buffer + lines, max)
    ensures |AppendAll(buffer, max, lines)| <= max
    decreases |lines|
  {
    if lines != [] {
      var next := AppendLine(buffer, max, lines[0]);
      AppendLineIsWindow(buffer, max, lines[0]);
      AppendAllIsWindow(next, max, lines[1..]);
      var h := buffer + lines;
      assert buffer + [lines[0]] + lines[1..] == h;
      var w := LastN(buffer + [lines[0]], max);
      assert LastN(w + lines[1..], max) == LastN(h, max) by {
        var k := |buffer| + 1 - |w|;
        assert w == (buffer + [lines[0]])[k..];
        assert w + lines[1..] == h[k..];
      }
    }
  }

  /** With a capacity of zero the ring does not stay empty: it holds exactly the newest line. */
  lemma {:induction false} ZeroCapacityKeepsNewestLine(buffer: seq<string>, lines: seq<string>)
    requires |buffer| <= 1 && lines != []
    ensures AppendAll(buffer, 0, lines) == [lines[|lines| - 1]]
    decreases |lines|
  {
    var next := AppendLine(buffer, 0, lines[0]);
    if |lines| > 1 {
      ZeroCapacityKeepsNewestLine(next, lines[1..]);
      assert lines[1..][|lines| - 2] == lines[|lines| - 1];
    } else {
      assert lines[1..] == [];
    }
  }

  /** `get_output_preview`: iterate the buffer backwards, take `n`, and restore the order. */
  function Preview(buffer: seq<string>, n: nat): (r: seq<string>)
    ensures |r| == Min(n, |buffer|)
    ensures r == buffer[|buffer| - |r|..]
    decreases n
  {
    if n == 0 || buffer == [] then []
    else Preview(buffer[..|buffer| - 1], n - 1) + [buffer[|buffer| - 1]]
  }

  function AppendOutput(s: Session, line: string, now: nat): (s': Session)
    ensures s'.outputBuffer == AppendLine(s.outputBuffer, s.config.maxOutputBuffer, line)
    ensures s'.updatedAt == now
    ensures s' == s.(outputBuffer := s'.outputBuffer, updatedAt := now)
  {
    s.(outputBuffer := AppendLine(s.outputBuffer, s.config.maxOutputBuffer, line), updatedAt := now)
  }

  function SetStatus(s: Session, status: SessionStatus, now: nat): (s': Session)
    ensures s'.status == status && s'.updatedAt == now
    ensures s' == s.(status := status, updatedAt := now)
  {
    s.(status := status, updatedAt := now)
  }

  function SetError(s: Session, message: string, now: nat): (s': Session)
    ensures s'.errorMessage == Some(message) && s'.status == Error
    ensures s' == s.(errorMessage := Some(message), status := Error, updatedAt := now)
  {
    SetStatus(s.(errorMessage := Some(message)), Error, now)
  }

  /** Kill the child if there is one, then mark the session terminated. */
  function Terminate(s: Session, now: nat): (s': Session)
    ensures s'.process == None && s'.status == Terminated
    ensures s' == s.(process := None, status := Terminated, updatedAt := now)
  {
    SetStatus(s.(process := None), Terminated, now)
  }

  lemma TerminateIsIdempotent(s: Session, now: nat)
    ensures Terminate(Terminate(s, now), now) == Terminate(s, now)
  {
  }

  function ToInfo(s: Session, diffStats: Option<DiffStats>): (info: SessionInfo)
    ensures info.id == s.id && info.branchName == s.branchName && info.autoYes == s.config.autoYes
    ensures info.projectId == s.projectId
    ensures info.projectPath == Display(s.projectPath) && info.worktreePath == Display(s.worktreePath)
    ensures info.status == s.status && info.diffStats == diffStats
    ensures info.createdAt == s.createdAt && info.updatedAt == s.updatedAt
    ensures info.outputPreview == Join(LastN(s.outputBuffer, PreviewLines), "\n")
  {
    SessionInfo(s.id, s.projectId, Display(s.projectPath), Display(s.worktreePath), s.branchName,
                s.status, s.createdAt, s.updatedAt, s.config.autoYes,
                Join(Preview(s.outputBuffer, PreviewLines), "\n"), diffStats)
  }
}

=== FILE: text.dfy ===
/** Character-level helpers: ASCII digits, ASCII case folding, substring tests, and Rust's
    `str::lines` / `join("\n")`. */
module Text {

  predicate IsDigit(c: char) {
    '0' <= c <= '9'
  }

  predicate AllDigits(s: string) {
    forall i :: 0 <= i < |s| ==> IsDigit(s[i])
  }

  function DigitValue(c: char): nat
    requires IsDigit(c)
  {
    (c as int) - ('0' as int)
  }

  function DigitChar(d: nat): (c: char)
    requires d < 10
    ensures IsDigit(c) && DigitValue(c) == d
  {
    (('0' as int) + d) as char
  }

  /** The decimal value of a run of digits, as `str::parse::<usize>` reads it (without overflow). */
  function DigitsValue(ds: string): nat
    requires AllDigits(ds)
  {
    if ds == [] then 0 else DigitsValue(ds[..|ds| - 1]) * 10 + DigitValue(ds[|ds| - 1])
  }

  /** The decimal rendering of `n`, without leading zeros. */
  function NatToDigits(n: nat): (ds: string)
    ensures |ds| > 0 && AllDigits(ds)
  {
    if n < 10 then [DigitChar(n)] else NatToDigits(n / 10) + [DigitChar(n % 10)]
  }

  lemma {:induction false} DigitsRoundTrip(n: nat)
    ensures DigitsValue(NatToDigits(n)) == n
  {
    if n >= 10 {
      DigitsRoundTrip(n / 10);
      var ds := NatToDigits(n);
      assert ds[..|ds| - 1] == NatToDigits(n / 10);
    }
  }

  /** ASCII lower-casing; every other character is left alone. */
  function Lower(c: char): char {
    if 'A' <= c <= 'Z' then ((c as int) + 32) as char else c
  }

  function LowerStr(s: string): (r: string)
    ensures |r| == |s|
    ensures forall i :: 0 <= i < |s| ==> r[i] == Lower(s[i])
  {
    seq(|s|, i requires 0 <= i < |s| => Lower(s[i]))
  }

  /** `sub` occurs in `s` starting at index `i`. */
  predicate OccursAt(s: string, sub: string, i: int) {
    0 <= i && i + |sub| <= |s| && s[i..i + |sub|] == sub
  }

  /** Rust's `str::contains` with a literal needle. */
  predicate Contains(s: string, sub: string) {
    exists i | 0 <= i <= |s| :: OccursAt(s, sub, i)
  }

  /** A case-insensitive `(?i)literal` search, for a lower-case literal. */
  predicate ContainsIgnoreCase(s: string, lowerSub: string) {
    Contains(LowerStr(s), lowerSub)
  }

  /** A string contains each of its infixes. */
  lemma InfixContained(pre: string, sub: string, post: string)
    ensures Contains(pre + sub + post, sub)
  {
    var s := pre + sub + post;
    assert s[|pre|..|pre| + |sub|] == sub;
    assert OccursAt(s, sub, |pre|);
  }

  /** Lower-casing works character by character, so it distributes over concatenation. */
  lemma LowerStrConcat(a: string, b: string)
    ensures LowerStr(a + b) == LowerStr(a) + LowerStr(b)
  {
  }

  /** A needle whose first character never occurs in `s` is not contained in it. */
  lemma FirstCharAbsent(s: string, sub: string)
    requires |sub| > 0 && sub[0] !in s
    ensures !Contains(s, sub)
  {
  }

  predicate EndsWith(s: string, suffix: string) {
    |suffix| <= |s| && s[|s| - |suffix|..] == suffix
  }

  /** Index of the first `c` in `s`, or `|s|` when there is none. */
  function FirstIndex(s: string, c: char): (i: nat)
    ensures i <= |s|
    ensures i < |s| ==> s[i] == c
    ensures forall j :: 0 <= j < i ==> s[j] != c
  {
    if s == [] then 0 else if s[0] == c then 0 else 1 + FirstIndex(s[1..], c)
  }

  function StripCr(line: string): string {
    if |line| > 0 && line[|line| - 1] == '\r' then line[..|line| - 1] else line
  }

  /** Rust's `str::lines`: split at `\n`, drop a `\r` right before a `\n`, and yield no empty
      line after a final `\n`. */
  function Lines(s: string): (ls: seq<string>)
    ensures forall k :: 0 <= k < |ls| ==> '\n' !in ls[k]
    ensures s == [] <==> ls == []
    decreases |s|
  {
    if s == [] then []
    else
      var i := FirstIndex(s, '\n');
      if i == |s| then [s] else [StripCr(s[..i])] + Lines(s[i + 1..])
  }

  /** Rust's `join` on a slice of strings. */
  function Join(ls: seq<string>, sep: string): string {
    if ls == [] then ""
    else if |ls| == 1 then ls[0]
    else ls[0] + sep + Join(ls[1..], sep)
  }
}

=== FILE: types.dfy ===
/** The shared vocabulary of the orchestrator: session status, diff statistics, the session
    summary handed to the user interface, and the broadcast events. */
module Types {
  import opened Results

  /** A session's life-cycle state, serialised in snake case (`#[serde(rename_all = "snake_case")]`). */
  datatype SessionStatus =
    | Initializing
    | Running
    | Ready
    | Loading
    | Paused
    | Error
    | Completed
    | Terminated

  /** The summary of `git diff --stat`. */
  datatype DiffStats = DiffStats(filesChanged: nat, insertions: nat, deletions: nat)

  const NoChanges := DiffStats(0, 0, 0)

  /** The read-only projection of a session; paths are already rendered as text and the
      timestamps are the model's abstract clock readings. */
  datatype SessionInfo = SessionInfo(
    id: string,
    projectId: string,
    projectPath: string,
    worktreePath: string,
    branchName: string,
    status: SessionStatus,
    createdAt: nat,
    updatedAt: nat,
    autoYes: bool,
    outputPreview: string,
    diffStats: Option<DiffStats>)

  /** Events published on the broadcast channel; each names the affected session. */
  datatype SessionEvent =
    | StatusChanged(sessionId: string, status: SessionStatus)
    | OutputAppended(sessionId: string, output: string)
    | DiffUpdated(sessionId: string, stats: DiffStats)
    | SessionCreated(sessionId: string)
    | SessionTerminated(sessionId: string)
    | ErrorReported(sessionId: string, error: string)
}
